=== FILE: README.md ===
# tetris.c game engine in Dafny

A model of the game engine of `tetris.c`, the falling-block game that runs on
an 8-bit AVR and draws on an OLED panel. The model covers the engine's
state and its transitions:

- the 10 x 20 board packed into `u8 board[25]`;
- the 32-slot piece table;
- the 16-bit pseudo-random generator;
- the placement check and the xor merge;
- moves left and right, the two rotations, fall and lock, instant drop, and hold;
- the spawn (`tetris_move_up`), line clearing, and `tetris_init`.

Every transition is a pure function from one game state to a new state or
to an outcome. The outcome is `Running`, `Halted`, or `Undefined`:

- `Halted` is the endless loop of `tetris_end`.
- `Undefined` is an array access past a bound, where C defines nothing.

The model follows the code as written, including its slips. The main
properties proved are these:

- The check accepts exactly the placements that fit.
- Applying xor twice restores the board.
- Line clearing adds the number of full rows to the 16-bit counter.
- One collapse pass moves the rows above its stop row down by one and
  removes exactly one full row. A clear that does not fault leaves the
  compacted board: the rows that were not full, in their order, each moved
  down by the number of full rows below it, under empty rows. Clearing
  again changes nothing.
- From a state where the piece fits, left and right moves undo each other.
- A rot1 and then a rot2 that both go through restore `pi`.
- The two swapping holds restore the pieces.
- An instant drop locks exactly once, at the landing row.
- The first game after power-on starts with shape 4, with the square next.

Modules, one file each:

- `fixed_width.dfy` (`FixedWidth`): `uint8_t`, `uint16_t` and `int8_t` with
  their wrap-around, and the masks for walking a bitmap bit by bit.
- `errors.dfy` (`Errors`): the three faults and the `Result` type.
- `grid.dfy` (`Grid`): the board. The game logic works on the 200 cells as
  a `seq<bool>` indexed by `10 * y + x`. The packed `board[25]` and
  get_board/set_board are modelled on `seq<bv8>`, and `Unpack` proves the
  two views agree.
- `piece_table.dfy` (`PieceTable`): `pieces[]`, and which bit of a bitmap
  is which box cell, as read by the check and by the xor.
- `prng.dfy` (`Prng`): `rand`, `rand7`, `tetris_get_next`.
- `placement.dfy` (`Placement`): `tetris_check` and `tetris_xor`, as
  recursions over the 16 cells of the bitmap.
- `line_clear.dfy` (`LineClear`): `tetris_clear_lines`, with the 16-bit
  register `cl`.
- `engine.dfy` (`Engine`): the game state and its transitions.

### The code as written

These behaviours of the source are modelled exactly, not corrected.

- **The xor mask.** `tetris_xor` tests `t & 0x80` where the check tests
  `p & 0x8000` (tetris.c:159, tetris.c:217). The merge therefore toggles
  box rows 0 and 1 from the low byte of the bitmap, and never looks at the
  high byte (`PieceTable.MergedCell`, `Placement.XorIgnoresHighByte`).
  Together with the lock position this is memory safe as long as the
  piece fits where it stands: `Engine.LockInBounds` proves that from such
  a state the lock after a fall never toggles a cell off the board. A
  rotation can break that condition (see the rotation store below), and
  for a piece that does not fit no such bound is proved.
- **The lock position.** `tetris_fall` locks at the incremented `posy`;
  there is no `posy--` (tetris.c:274-276).
- **The rotation store.** The rotations check `pieces[pi & 31]` but store
  `pieces[pi & 32]` (tetris.c:253-254, 266-267). A successful rotation
  turns any piece into the square of slot 0. Once bit 5 of `pi` is set, it
  reads `pieces[32]`, past the table. See `Engine.TurnedIntoSquare` and
  `Engine.FourthTurnFaults`. So a rotation does not in general keep the
  piece placed: the square is stored where another bitmap was checked.
  `Engine.RotationLeavesUnplaced` shows a vertical I beside a block that
  checks the horizontal I and stores the square over the block.
- **The collapse stop rule.** The pass loop compares the whole register
  with `0x3ff` (tetris.c:202). Bits 10 .. 15 still hold columns 4 .. 9 of
  the row above.
  - A pass therefore stops only at a full row 0, or at a full row whose
    upper neighbour is empty in columns 4 .. 9.
  - Otherwise it walks past row 19 (`LineClear.ClearPastBoard`).
  - A full bottom row under a single block at (4, 18) is enough
    (`LineClear.ClearPastBoardExample`).
- **The generator.** `rand() % 7` is biased: 37 of the 256 bytes give each
  of 0 .. 3, and 36 each of 4 .. 6 (`Prng.Rand7Bias`).
- **The generator settles.** The multiplier 58566 is even, so bit j of a new
  seed depends only on the bits below j of the old one. After 16 calls of
  `rand()` every seed has reached 49257, which `rand()` maps to itself.
  From the 16th draw on, every piece is shape 3 (`Prng.SeedSettles`,
  `Prng.SameShapeForever`).
- **Rotating back from rotation 0.** `pi -= 8` on a `uint8_t` turns 0 .. 6
  into 248 .. 254, where bit 5 is set. Every rot2 from a rotation-0 slot
  whose check passes therefore reads `pieces[32]` (`Engine.RotateBackFaults`).

### Further facts about the code

- **Generator.** The generator is a 16-bit linear congruential generator,
  and its output byte is reduced with `% 7`. There is no rejection of the
  bytes that make the draw uneven.
- **Table layout.** The table groups the slots by rotation: slot `8 * r + s`
  holds rotation r of shape s.
- **Next and hold.** `next` and `hold` are live bitmaps, kept beside their
  slot numbers `ni` and `hi`.
- **Rotation.** A rotation moves the `uint8_t` `pi` by 8 modulo 256 and
  stores the slot `pi & 32`, as described above.
- **Line clearing.** Full rows are removed by the register walk with the
  stop rule above, one row per pass.
- **No input loop.** `main` sets the seed, calls `tetris_init`, and then
  only blinks two LEDs. The calls to the other transitions are commented
  out, and there is no timer-driven fall.

## Model

| member | source | states |
|---|---|---|
| FixedWidth.ShiftedTop | tetris.c:214-231 | after n of the check's `p <<= 1` steps, the bit `0x8000` it reads is bit 15 - n of the original bitmap, i.e. box cell n |
| FixedWidth.ShiftedLow | tetris.c:155-165 | after n of the xor's `t <<= 1` steps, the bit `0x80` it reads is bit 7 - n of the bitmap for n < 8 and a shifted-in zero after that |
| Grid.CellIndex | tetris.c:143 | the uint8_t index `(y << 3) + (y << 1) + x` is the row-major cell number `10 * y + x` for every cell of the board |
| Grid.Get | tetris.c:142-145 | get_board on a cell of the board; `Grid.GetBoardUnpacked` proves that the bit get_board reads in the packed array is this cell |
| Grid.Set | tetris.c:147-153 | set_board on a cell of the board: that cell reads back the written value and every other cell is unchanged |
| Grid.GetBoardUnpacked | tetris.c:142-145 | get_board reads one of the 25 bytes and returns exactly cell (x, y) of the board the packed array holds |
| Grid.SetBoardUnpacked | tetris.c:147-153 | the bit-level write of set_board on the packed array is the one-cell update of the board it holds |
| Grid.UnpackInjective | tetris.c:26 | the 25 bytes hold exactly the 200 cells: two arrays holding the same board are equal |
| Grid.ZeroedIsEmpty | tetris.c:168 | zeroing the 25 bytes empties every cell of the board |
| PieceTable.Piece | tetris.c:126 | slot i of the table is zero exactly when i % 8 == 7, the padding slot of each rotation group |
| PieceTable.TableLayout | tetris.c:126 | the slots 8r + 7 are the zero padding and the only zero slots; the seven rotation-0 slots are nonzero |
| Prng.NextSeed | tetris.c:129 | the seed step `58566 * seed + 27443` kept to 16 bits; every new seed is odd |
| Prng.Rand | tetris.c:128-131 | rand advances the seed by the LCG modulo 2^16 and returns bits 8 .. 15 of the new seed times 53458, a value fixed by the product modulo 2^16 |
| Prng.Rand7 | tetris.c:133-135 | rand7 yields a shape number 0 .. 6 and advances the seed once |
| Prng.Rand7Bias | tetris.c:133-135 | of the 256 bytes rand can return, 37 map to each of 0 .. 3 and 36 to each of 4 .. 6 |
| Prng.GetNext | tetris.c:137-140 | tetris_get_next loads `pieces[ni]` for a shape 0 .. 6, never a padding slot, and advances the seed once |
| Prng.DrawsFromSeedFour | tetris.c:382 | from the seed 4 set in main, the first two draws are shape 4 and then shape 0 |
| Prng.NextSeedAgrees | tetris.c:129 | because 58566 is even, two seeds that agree in their k - 1 lowest bits step to seeds that agree in their k lowest bits |
| Prng.SeedSettles | tetris.c:128-131 | whatever the seed, after 16 or more calls of rand() it is 49257, the seed rand() maps to itself |
| Prng.SameShapeForever | tetris.c:133-140 | from the 16th draw on, whatever the starting seed, rand7 yields shape 3 every time |
| Placement.Check | tetris.c:214-231 | tetris_check is true exactly when every set box cell lands on an empty cell inside the 10 x 20 board |
| Placement.CheckEmptyPiece | tetris.c:214-231 | the check accepts the empty bitmap at every origin |
| Placement.Xor | tetris.c:155-165 | the only way tetris_xor fails is a toggle at an index past the 200 cells; `Placement.XorCells` states which cells it flips |
| Placement.XorCells | tetris.c:155-165 | when every toggled cell is on the board, tetris_xor succeeds and flips exactly the merged cells of the piece, and no other cell |
| Placement.XorTwice | tetris.c:155-165 | when every toggled cell is on the board, tetris_xor applied twice gives back the original board, as tetris_draw_board relies on |
| Placement.XorIgnoresHighByte | tetris.c:156-162 | the merge depends only on the low byte of the bitmap; a bitmap with a zero low byte leaves the board unchanged |
| Placement.MergeBelowFit | tetris.c:155-165 | the cells the xor toggles one row below a fitting origin are all on the board |
| LineClear.ScanRowFull | tetris.c:189-194 | after the ten shifts of a row, the low ten bits of the register are all set exactly when the row is full |
| LineClear.ScanFrom | tetris.c:187-198 | the counting loop sets `ltc` to the number of full rows and adds that number to the 16-bit counter modulo 2^16 |
| LineClear.StopTest | tetris.c:202-208 | after the collapse of row y, the register equals 0x3ff exactly when row y is full and row y - 1 has columns 4 .. 9 empty, or y is 0 |
| LineClear.CollapseStep | tetris.c:203-208 | collapsing row y moves old row y - 1 into row y and carries old row y on in the register, rows below untouched |
| LineClear.CollapseFrom | tetris.c:202-208 | the loop `while (cl != 0x3ff)` from row y; its only fault is walking on to row 20, outside the board |
| LineClear.CollapseFromEnds | tetris.c:202-208 | from a register carrying the row above, the loop ends on the board exactly when some row from y on is full with columns 4 .. 9 of the row above empty |
| LineClear.CollapseFromShifts | tetris.c:202-208 | when the loop ends on the board, every row up to the stop row holds the old row above it |
| LineClear.PassRemovesRow | tetris.c:199-209 | shifting rows 0 .. L - 1 down onto the full stop row L leaves exactly one full row fewer |
| LineClear.CompactedMoves | tetris.c:186-212 | on the board a clear is meant to leave, every row that is not full moves down by the number of full rows below it, cells unchanged |
| LineClear.CompactedTop | tetris.c:186-212 | on that board the top rows, one for each full row, are empty |
| LineClear.CompactedWhenNoneFull | tetris.c:186-212 | a board without a full row is left as it is |
| LineClear.PassKeepsCompacted | tetris.c:199-209 | a pass that stops at a full row keeps the non-full rows in order and adds one empty row on top, so the board it is heading for does not change |
| LineClear.CollapsePass | tetris.c:199-209 | a pass stays on the board exactly when some row stops it; then row 0 is empty, old rows 0 .. L - 1 sit in rows 1 .. L, rows below L are unchanged, exactly one full row is gone, and the compacted board is the same |
| LineClear.Passes | tetris.c:199-211 | zero passes leave the board as it is; n passes end on the board only when at least n rows are full, and then leave n fewer full rows with the same compacted board; the only fault is a walk past row 19 |
| LineClear.ClearLines | tetris.c:186-212 | the counter grows by the number of rows full on entry, modulo 2^16; a clear that ends on the board leaves exactly the compacted board (the non-full rows in order at the bottom, empty rows on top); with no full row board and counter are unchanged; the only fault is a walk past row 19 |
| LineClear.ClearTwice | tetris.c:186-212 | clearing the result of a clear that ended on the board changes neither board nor counter |
| LineClear.ClearPastBoard | tetris.c:199-209 | when row 0 is not full and every full row has a block in columns 4 .. 9 of the row above, clearing faults although rows are full |
| LineClear.ClearPastBoardExample | tetris.c:202 | a full bottom row under one block at (4, 18) makes clearing walk past the board |
| Engine.Game | tetris.c:26-36 | the globals of the engine as one record: the board as its 200 cells, the bitmaps, the int8_t position, the 16-bit counter, the slot numbers and the seed |
| Engine.Outcome | tetris.c:368-370 | `Halted` is the endless loop of tetris_end, entered with the state it stopped in; `Undefined` is an access past `board[25]` or `pieces[32]` |
| Errors.Fault | tetris.c:155-165 | the three out-of-bounds accesses: a toggle at index 200 or more, the load of `pieces[32]` (tetris.c:254, 267), and a collapse pass on row 20 (tetris.c:202-208) |
| Engine.DrawNext | tetris.c:137-140 | the drawn `next` is `pieces[ni]` for a shape 0 .. 6, the seed advances once, and nothing else in the state changes |
| Engine.MoveUp | tetris.c:178-184 | the piece moves to (3, 0) and nothing else changes; the game goes on exactly when the piece fits there, and halts otherwise |
| Engine.Shift | tetris.c:233-245 | only posx can change; it moves by the step exactly when the piece fits there, otherwise it is restored; a placed piece stays placed |
| Engine.Left | tetris.c:233-238 | `posx--` is kept exactly when the piece fits one column left; otherwise the state is as before |
| Engine.Right | tetris.c:240-245 | `posx++` is kept exactly when the piece fits one column right; otherwise the state is as before |
| Engine.LeftRightInverse | tetris.c:233-245 | from a state where the piece fits, a successful left move is undone by a right move, and the other way round |
| Engine.Rotate | tetris.c:247-271 | a failed check restores the state exactly; a passing check sets `pi` to pi ± 8 modulo 256 and loads the square, or faults when bit 5 of the new `pi` is set; never halts |
| Engine.Rot1 | tetris.c:247-258 | a failed check leaves the state as it was; a passing check faults exactly when bit 5 of the new `pi` is set, and otherwise sets `pi += 8` and loads the square |
| Engine.Rot2 | tetris.c:260-271 | a failed check leaves the state as it was; a passing check faults exactly when bit 5 of the new `pi` is set, and otherwise sets `pi -= 8` and loads the square |
| Engine.TurnBack | tetris.c:252-256 | `pi -= 8` after `pi += 8` on a uint8_t restores `pi` (and the same for rot2) |
| Engine.RotateFrame | tetris.c:247-271 | a rotation never moves the piece or changes the board, next or hold, and keeps the shape `pi % 8` |
| Engine.RotationsUndo | tetris.c:247-271 | a rot1 and then a rot2 that both pass their checks and go on restore `pi` |
| Engine.TurnedIntoSquare | tetris.c:252-254 | a vertical I at the spawn point of the empty board rotates into the square |
| Engine.FourthTurnFaults | tetris.c:252-254 | a rot1 from `pi` = 25 checks a table bitmap but loads `pieces[32]` |
| Engine.RotationLeavesUnplaced | tetris.c:252-254 | a rotation that goes on can leave the piece where it does not fit: a placed vertical I checks the horizontal I and stores the square over a block |
| Engine.RotateBackFaults | tetris.c:265-267 | every rot2 from a rotation-0 slot 0 .. 6 whose check passes wraps `pi` to 248 .. 254 and loads `pieces[32]` |
| Engine.Respawn | tetris.c:277-280 | after the merge: next becomes current, a fresh next is drawn, the piece moves to (3, 0), and the game halts exactly when it does not fit |
| Engine.Settle | tetris.c:281 | line clearing changes only the board and the counter, adds the full rows, leaves the compacted board with no full row in a game that goes on, and does nothing without a full row |
| Engine.Lock | tetris.c:276-281 | a lock that does not fault leaves the game with the new piece at the spawn point |
| Engine.LockOutcome | tetris.c:273-283 | the lock halts exactly when the next piece does not fit on the merged board; otherwise next becomes current, a new one is drawn, and the counter grows by the merged board's full rows; a game that goes on has the merged board compacted, with no full row |
| Engine.Fall | tetris.c:273-283 | one row down when the piece fits there, changing only posy; otherwise the lock at the lower row |
| Engine.FallKeepsPlaced | tetris.c:273-275 | a fall that moves the piece down keeps it placed |
| Engine.InstantDrop | tetris.c:285-287 | the loop of falls ends, and a running game ends with the piece at row 0 |
| Engine.DropLands | tetris.c:285-287 | an instant drop from a row of the board is exactly the lock at the first lower row where the piece does not fit |
| Engine.DropLocks | tetris.c:285-287 | when the piece cannot fall, the drop is that one lock |
| Engine.LockInBounds | tetris.c:155-165 | when the piece fits where it stands on a row of the board, the lock of the next fall never toggles a cell outside the board |
| Engine.LockOnBoard | tetris.c:276 | a lock whose merged cells are all on the board does not fault in the merge |
| Engine.Hold | tetris.c:289-308 | with nothing held, hold the piece and bring in next with a fresh draw; otherwise swap piece and hold with next untouched; both respawn at (3, 0), board and counter unchanged |
| Engine.HoldTwice | tetris.c:300-306 | two successful swapping holds restore piece, pi, hold and hi, with the piece at the spawn point |
| Engine.Init | tetris.c:167-176 | on any state: empty board, no hold, counter 0, two draws, a placed piece of rotation 0 at (3, 0); the game never halts at init |
| Engine.Deal | tetris.c:171-175 | the first draw becomes current, the second is drawn, the piece spawns and the counter is zeroed |
| Engine.FirstGame | tetris.c:382-383 | the game main() starts has shape 4 (0x06c0) at the spawn point and the square next |

## Left out

- The bit-banged two-wire bus and the panel set-up (tetris.c:38-112) are
  port-register I/O, not game logic.
- The renderers tetris_draw_board, tetris_draw_next and tetris_draw_hold
  (tetris.c:310-366) only send pixels. The one fact about the game they rely
  on, that xor applied twice restores the board, is `Placement.XorTwice`.
- `main` and `set_timer` (tetris.c:372-403) program the hardware timer and
  blink LEDs. The model keeps only the seed of 4 and the call to
  tetris_init (`Engine.FirstGame`).
- `PROGMEM`: the code indexes the table as a plain array, without
  `pgm_read_word`. On the AVR such a read fetches data memory at the
  table's flash address. The model assumes these reads return the table's
  values.
- oled.c and main.c are demo programs made of bus and port I/O. They are
  not part of this model.
- What C does after a fault is not modelled: past `board[25]` or
  `pieces[32]` the outcome is `Undefined`. On the device such an access
  reads or writes whatever memory follows.
- Engine.Lock: its own contract states only the spawn position; the rest of
  what a lock does is stated by `Engine.LockOutcome`, which keeps the
  proofs about drops small.
- Engine.Rotate: rotation keeps the piece placed only when the stored
  square is what was checked. No lemma claims more, because the code does
  not promise more.
- Prng.NextSeed: `58566 * seed` is computed in a 32-bit signed `long`, and
  for large seeds it exceeds that range, which C leaves undefined. The model
  assumes the product wraps in two's complement, so only the
  low 16 bits matter.
- Prng.Rand: the same holds for `seed * 53458`, whose bits 8 .. 15 are the
  draw.

=== FILE: engine.dfy ===
/**
 * The game state of tetris.c and its transitions. The globals of
 * tetris.c:26-36 form one record; tetris_get_next, tetris_move_up,
 * tetris_left/right, tetris_rot1/rot2, tetris_fall, tetris_instant_drop,
 * tetris_hold and tetris_init are functions from a state to an outcome.
 */
module Engine {
  import opened FixedWidth
  import opened Grid
  import opened PieceTable
  import opened Prng
  import opened Placement
  import opened LineClear
  import opened Errors

  /** The globals of tetris.c:26-36, the board as its 200 cells. */
  datatype Game = Game(
    board: Board,
    piece: bv16,
    next: bv16,
    hold: bv16,
    posx: i8,
    posy: i8,
    linesCleared: u16,
    pi: u8,
    ni: u8,
    hi: u8,
    seed: u16)

  /**
   * Where a transition leaves the machine: still running, spinning in the
   * `while (true) {}` of tetris_end (tetris.c:368-370) in the state it
   * stopped in, or past an array bound, where C defines nothing.
   */
  datatype Outcome = Running(game: Game) | Halted(game: Game) | Undefined(fault: Fault)

  /** The active piece fits where it stands. */
  predicate Placed(g: Game)
  {
    Fits(g.board, g.piece, g.posx, g.posy)
  }

  /** tetris_get_next(): draw `ni` and load `next = pieces[ni]`. */
  function DrawNext(g: Game): (r: Game)
    ensures r.ni < Shapes && r.next == Piece(r.ni) && r.next != 0
    ensures r.seed == NextSeed(g.seed)
    ensures r.(ni := g.ni, next := g.next, seed := g.seed) == g
  {
    var (ni, next, seed) := GetNext(g.seed);
    g.(ni := ni, next := next, seed := seed)
  }

  /** tetris_move_up(): put the piece at (3, 0), and halt when it does not fit there. */
  function MoveUp(g: Game): (r: Outcome)
    ensures !r.Undefined? && r.game == g.(posx := 3, posy := 0)
    ensures r.Running? <==> Fits(g.board, g.piece, 3, 0)
  {
    var g' := g.(posx := 3, posy := 0);
    if Check(g'.board, g'.piece, g'.posx, g'.posy) then Running(g') else Halted(g')
  }

  /**
   * tetris_left (dx = -1) and tetris_right (dx = 1): `posx += dx` on the
   * int8_t, undone by `posx -= dx` when the piece does not fit there.
   */
  function Shift(g: Game, dx: int): (r: Game)
    requires dx == -1 || dx == 1
    ensures r.(posx := g.posx) == g
    ensures r.posx != g.posx <==> Fits(g.board, g.piece, ToI8(g.posx + dx), g.posy)
    ensures r.posx != g.posx ==> r.posx == ToI8(g.posx + dx)
    ensures Placed(g) ==> Placed(r)
  {
    var moved := g.(posx := ToI8(g.posx + dx));
    if Check(moved.board, moved.piece, moved.posx, moved.posy) then moved
    else moved.(posx := ToI8(moved.posx - dx))
  }

  /** tetris_left(): one column left when the piece fits there, otherwise nothing changes. */
  function Left(g: Game): (r: Game)
    ensures Fits(g.board, g.piece, ToI8(g.posx - 1), g.posy) ==> r == g.(posx := ToI8(g.posx - 1))
    ensures !Fits(g.board, g.piece, ToI8(g.posx - 1), g.posy) ==> r == g
  {
    Shift(g, -1)
  }

  /** tetris_right(): one column right when the piece fits there, otherwise nothing changes. */
  function Right(g: Game): (r: Game)
    ensures Fits(g.board, g.piece, ToI8(g.posx + 1), g.posy) ==> r == g.(posx := ToI8(g.posx + 1))
    ensures !Fits(g.board, g.piece, ToI8(g.posx + 1), g.posy) ==> r == g
  {
    Shift(g, 1)
  }

  /** A move that went through is undone by the opposite move. */
  lemma ShiftBack(g: Game, dx: int)
    requires dx == -1 || dx == 1
    requires Placed(g) && Shift(g, dx).posx != g.posx
    ensures Shift(Shift(g, dx), -dx) == g
  {
    var m := Shift(g, dx);
    assert ToI8(m.posx - dx) == g.posx;
  }

  lemma LeftRightInverse(g: Game)
    requires Placed(g)
    ensures Left(g).posx != g.posx ==> Right(Left(g)) == g
    ensures Right(g).posx != g.posx ==> Left(Right(g)) == g
  {
    if Left(g).posx != g.posx {
      ShiftBack(g, -1);
    }
    if Right(g).posx != g.posx {
      ShiftBack(g, 1);
    }
  }

  /** `pi & 31`, the slot whose bitmap a rotation checks. */
  function CheckedSlot(i: u8): nat
  {
    i % 32
  }

  /** `pi & 32`, the slot a rotation loads: 0, or 32, one past the table. */
  function StoredSlot(i: u8): nat
  {
    if i / 32 % 2 == 1 then 32 else 0
  }

  /** The index a rotation moves `pi` to: `pi += 8` (step 8) or `pi -= 8` (step 248) on a uint8_t. */
  function Turned(i: u8, step: u8): u8
  {
    (i + step) % 0x100
  }

  /** Undoing a turn: `pi -= step` after `pi += step` on a uint8_t. */
  lemma TurnBack(i: u8, step: u8)
    requires step == 8 || step == 248
    ensures Turned(Turned(i, step), 0x100 - step) == i
  {
    if i + step < 0x100 {
      assert Turned(i, step) == i + step;
    } else {
      assert Turned(i, step) == i + step - 0x100;
    }
  }

  /** A turn moves `pi` by a whole group of eight slots, so it keeps the shape `pi % 8`. */
  lemma TurnKeepsShape(i: u8, step: u8)
    requires step == 8 || step == 248
    ensures Turned(i, step) % 8 == i % 8
  {
    if i + step < 0x100 {
      assert Turned(i, step) == i + step;
    } else {
      assert Turned(i, step) == i + step - 0x100;
    }
  }

  /** The rotation by `step` finds the checked bitmap fitting at the piece's origin. */
  predicate TurnFits(g: Game, step: u8)
  {
    Fits(g.board, Piece(CheckedSlot(Turned(g.pi, step))), g.posx, g.posy)
  }

  /**
   * tetris_rot1 (step 8) and tetris_rot2 (step 248). As written the
   * rotation checks `pieces[pi & 31]` but stores `pieces[pi & 32]`
   * (tetris.c:253-254, 266-267): the piece becomes the square 0x0660 of
   * slot 0, or, once bit 5 of `pi` is set, the load reads past the table.
   */
  function Rotate(g: Game, step: u8): (r: Outcome)
    requires step == 8 || step == 248
    ensures !r.Halted?
    ensures !TurnFits(g, step) ==> r == Running(g)
    ensures TurnFits(g, step) ==> (r.Undefined? <==> StoredSlot(Turned(g.pi, step)) == 32)
    ensures r.Undefined? ==> r.fault == RotationPastTable
    ensures TurnFits(g, step) && r.Running? ==> r.game == g.(pi := Turned(g.pi, step), piece := Piece(0))
  {
    var pi := Turned(g.pi, step);
    if Check(g.board, Piece(CheckedSlot(pi)), g.posx, g.posy) then
      if StoredSlot(pi) == 32 then Undefined(RotationPastTable)
      else Running(g.(pi := pi, piece := Piece(StoredSlot(pi))))
    else
      TurnBack(g.pi, step);
      Running(g.(pi := Turned(pi, 0x100 - step)))
  }

  /**
   * tetris_rot1(): `pi += 8`; when the bitmap of slot `pi & 31` fits, the
   * piece becomes `pieces[pi & 32]`, otherwise nothing changes.
   */
  function Rot1(g: Game): (r: Outcome)
    ensures !TurnFits(g, 8) ==> r == Running(g)
    ensures TurnFits(g, 8) ==> (r == Undefined(RotationPastTable) <==> StoredSlot(Turned(g.pi, 8)) == 32)
    ensures TurnFits(g, 8) && r.Running? ==> r.game == g.(pi := Turned(g.pi, 8), piece := 0x0660)
  {
    Rotate(g, 8)
  }

  /** tetris_rot2(): as tetris_rot1 with `pi -= 8`. */
  function Rot2(g: Game): (r: Outcome)
    ensures !TurnFits(g, 248) ==> r == Running(g)
    ensures TurnFits(g, 248) ==> (r == Undefined(RotationPastTable) <==> StoredSlot(Turned(g.pi, 248)) == 32)
    ensures TurnFits(g, 248) && r.Running? ==> r.game == g.(pi := Turned(g.pi, 248), piece := 0x0660)
  {
    Rotate(g, 248)
  }

  /**
   * A rotation never moves the piece or touches the board, the next piece
   * or the held piece, and keeps the shape `pi % 8`.
   */
  lemma RotateFrame(g: Game, step: u8)
    requires step == 8 || step == 248
    ensures Rotate(g, step).Running? ==>
      var h := Rotate(g, step).game;
      h.board == g.board && h.posx == g.posx && h.posy == g.posy
      && h.next == g.next && h.hold == g.hold && h.pi % 8 == g.pi % 8
  {
    TurnKeepsShape(g.pi, step);
  }

  /** A rot1 that went through, followed by a rot2 that went through, restores `pi`. */
  lemma RotationsUndo(g: Game)
    requires TurnFits(g, 8) && Rot1(g).Running?
    requires TurnFits(Rot1(g).game, 248) && Rot2(Rot1(g).game).Running?
    ensures Rot2(Rot1(g).game).game.pi == g.pi
  {
    var h := Rot1(g).game;
    assert h.pi == Turned(g.pi, 8);
    assert Rot2(h).game.pi == Turned(h.pi, 248);
    TurnBack(g.pi, 8);
  }

  /**
   * The rotation store as written: a vertical I piece at the spawn point of
   * the empty board turns into the square, not into the horizontal I
   * whose bitmap the check read.
   */
  lemma TurnedIntoSquare(g: Game)
    requires g.board == EmptyBoard && g.posx == 3 && g.posy == 0 && g.pi == 1
    ensures Rot1(g) == Running(g.(pi := 9, piece := 0x0660))
  {
    assert Turned(g.pi, 8) == 9 && StoredSlot(9) == 0;
    EmptyFits(Piece(9), 3, 0);
    assert TurnFits(g, 8);
  }

  /**
   * The fourth rot1 from rotation 0 sets bit 5 of `pi`: the check still
   * tests a bitmap of the table, but the store reads `pieces[32]`.
   */
  lemma FourthTurnFaults(g: Game)
    requires g.board == EmptyBoard && g.posx == 3 && g.posy == 0 && g.pi == 25
    ensures Rot1(g) == Undefined(RotationPastTable)
  {
    assert Turned(g.pi, 8) == 33 && CheckedSlot(33) == 1 && StoredSlot(33) == 32;
    EmptyFits(Piece(1), 3, 0);
    assert TurnFits(g, 8);
  }

  /**
   * A rotation can leave the piece where it does not fit: a vertical I at
   * (3, 0) beside a block at (4, 1) checks the horizontal I, which fits,
   * and stores the square over the block.
   */
  lemma RotationLeavesUnplaced(g: Game)
    requires g.board == EmptyBoard[14 := true] && g.posx == 3 && g.posy == 0
    requires g.piece == 0x8888 && g.pi == 1
    ensures Placed(g)
    ensures Rot1(g) == Running(g.(pi := 9, piece := 0x0660))
    ensures !Placed(Rot1(g).game)
  {
    var b := g.board;
    forall k | 0 <= k < 16
      ensures CellFits(b, 0x8888, 3, 0, k)
    {
      if BoxCell(0x8888, k) {
        assert k % 4 == 0;
        assert !Get(b, 3, k / 4);
      }
    }
    forall k | 0 <= k < 16
      ensures CellFits(b, 0xf000, 3, 0, k)
    {
      if BoxCell(0xf000, k) {
        assert k < 4;
        assert !Get(b, 3 + k, 0);
      }
    }
    assert Turned(g.pi, 8) == 9 && StoredSlot(9) == 0 && Piece(9) == 0xf000;
    assert TurnFits(g, 8);
    assert BoxCell(0x0660, 5) && Get(b, 4, 1);
    assert !CellFits(b, 0x0660, 3, 0, 5);
  }

  /**
   * Every rot2 from a rotation-0 slot whose check passes wraps `pi` to
   * 248 .. 254, where bit 5 is set, and loads `pieces[32]`.
   */
  lemma RotateBackFaults(g: Game)
    requires g.pi < 7 && TurnFits(g, 248)
    ensures Rot2(g) == Undefined(RotationPastTable)
  {
    assert Turned(g.pi, 248) == g.pi + 248;
  }

  /**
   * The respawn in the lock half of tetris_fall (tetris.c:278-280): with
   * the merged board, the next piece becomes current, a new one is drawn
   * and the piece is moved up to (3, 0), halting when it does not fit.
   */
  function Respawn(g: Game, merged: Board): (r: Outcome)
    ensures !r.Undefined? && (r.Halted? <==> !Fits(merged, g.next, 3, 0))
    ensures r.game.board == merged && r.game.piece == g.next && r.game.pi == g.ni
    ensures r.game.hold == g.hold && r.game.hi == g.hi && r.game.linesCleared == g.linesCleared
    ensures r.game.posx == 3 && r.game.posy == 0
    ensures r.game.ni < Shapes && r.game.next == Piece(r.game.ni) && r.game.seed == NextSeed(g.seed)
  {
    MoveUp(DrawNext(g.(board := merged, piece := g.next, pi := g.ni)))
  }

  /**
   * tetris_clear_lines() on a running game: the board and the counter
   * change, nothing else, and a game that goes on has the compacted board,
   * with no full row left.
   */
  function Settle(h: Game): (r: Outcome)
    ensures !r.Halted? && (r.Undefined? ==> r.fault == CollapsePastBoard)
    ensures r.Running? ==> r.game.(board := h.board, linesCleared := h.linesCleared) == h
    ensures r.Running? ==> r.game.linesCleared == (h.linesCleared + FullRows(h.board, 0)) % 0x1_0000
    ensures r.Running? ==> FullRows(r.game.board, 0) == 0
    ensures r.Running? ==> r.game.board == Compacted(h.board)
    ensures FullRows(h.board, 0) == 0 ==> r == Running(h)
  {
    match ClearLines(h.board, h.linesCleared)
    case Err(f) => Undefined(f)
    case Ok((b, lines)) => Running(h.(board := b, linesCleared := lines))
  }

  /**
   * The lock half of tetris_fall, entered with `posy` already incremented
   * (tetris.c:276-281): merge the piece where it stands, take the next
   * piece, draw a new one, respawn, and only then clear lines. tetris_xor
   * fails only by toggling a cell past the board. The game goes on from
   * the spawn point; LockOutcome states the rest.
   */
  function Lock(g: Game): (r: Outcome)
    ensures !r.Undefined? ==> r.game.posx == 3 && r.game.posy == 0
  {
    match Xor(g.board, g.piece, g.posx, g.posy)
    case Err(_) => Undefined(ToggleOutsideBoard)
    case Ok(merged) =>
      var spawned := Respawn(g, merged);
      if spawned.Halted? then spawned else Settle(spawned.game)
  }

  /**
   * What a lock does: halt exactly when the next piece does not fit at the
   * spawn point of the merged board; otherwise the next piece is current,
   * a fresh one is drawn, and the counter grows by the full rows of the
   * merged board, which only a collapse past the board can stop; a game
   * that goes on has the merged board with its full rows removed.
   */
  lemma LockOutcome(g: Game)
    ensures Xor(g.board, g.piece, g.posx, g.posy).Err? ==> Lock(g) == Undefined(ToggleOutsideBoard)
    ensures Xor(g.board, g.piece, g.posx, g.posy).Ok? ==>
      var merged := Xor(g.board, g.piece, g.posx, g.posy).value;
      var r := Lock(g);
      && (r.Halted? <==> !Fits(merged, g.next, 3, 0))
      && (r.Undefined? ==> r.fault == CollapsePastBoard)
      && (r.Halted? ==> r.game.board == merged)
      && (!r.Undefined? ==>
        var h := r.game;
        && h.piece == g.next && h.pi == g.ni && h.hold == g.hold && h.hi == g.hi
        && h.ni < Shapes && h.next == Piece(h.ni) && h.seed == NextSeed(g.seed))
      && (r.Running? ==> r.game.linesCleared == (g.linesCleared + FullRows(merged, 0)) % 0x1_0000)
      && (r.Running? && FullRows(merged, 0) == 0 ==> r.game.board == merged)
      && (r.Running? ==> FullRows(r.game.board, 0) == 0)
      && (r.Running? ==> r.game.board == Compacted(merged))
  {
  }

  /** tetris_fall(): one row down if the piece fits there, else lock it at that row. */
  function Fall(g: Game): (r: Outcome)
    ensures var y := ToI8(g.posy + 1);
      if Fits(g.board, g.piece, g.posx, y) then r == Running(g.(posy := y))
      else r == Lock(g.(posy := y))
    ensures r.Running? && r.game.posy != 0 ==> r.game == g.(posy := ToI8(g.posy + 1))
  {
    var down := g.(posy := ToI8(g.posy + 1));
    if Check(down.board, down.piece, down.posx, down.posy) then Running(down) else Lock(down)
  }

  /** Falling one row keeps a placed piece placed. */
  lemma FallKeepsPlaced(g: Game)
    requires Fall(g).Running? && Fall(g).game.posy != 0
    ensures Placed(Fall(g).game)
  {
  }

  /** The number of `posy++` steps from y before the int8_t wraps round to 0. */
  function StepsToZero(y: i8): nat
  {
    0x100 - ToU8(y)
  }

  /**
   * tetris_instant_drop(): `do { tetris_fall(); } while (posy);`. Each fall
   * either moves down a row or locks and respawns at row 0, so the loop
   * ends: posy counts up on the int8_t until it comes back to 0.
   */
  function InstantDrop(g: Game): (r: Outcome)
    ensures r.Running? ==> r.game.posy == 0
    decreases StepsToZero(g.posy)
  {
    var r := Fall(g);
    if r.Running? && r.game.posy != 0 then
      assert StepsToZero(r.game.posy) < StepsToZero(g.posy);
      InstantDrop(r.game)
    else r
  }

  /** A piece with some cell set fits only above row 20. */
  lemma FitsAboveFloor(b: Board, p: bv16, x: int, y: int)
    requires p != 0 && Fits(b, p, x, y)
    ensures y < Height
  {
    var k := SomeBoxCell(p);
    assert CellFits(b, p, x, y, k);
  }

  /** A nonzero bitmap has a set box cell. */
  function SomeBoxCell(p: bv16): (k: nat)
    requires p != 0
    ensures k < 16 && BoxCell(p, k)
  {
    if TopBit(p, 0) then 0 else if TopBit(p, 1) then 1 else if TopBit(p, 2) then 2
    else if TopBit(p, 3) then 3 else if TopBit(p, 4) then 4 else if TopBit(p, 5) then 5
    else if TopBit(p, 6) then 6 else if TopBit(p, 7) then 7 else if TopBit(p, 8) then 8
    else if TopBit(p, 9) then 9 else if TopBit(p, 10) then 10 else if TopBit(p, 11) then 11
    else if TopBit(p, 12) then 12 else if TopBit(p, 13) then 13 else if TopBit(p, 14) then 14
    else assert TopBit(p, 15); 15
  }

  /** The first row from y down where piece p at column x no longer fits, or 20. */
  function LandingRow(b: Board, p: bv16, x: int, y: int): (r: int)
    requires y <= Height
    ensures y <= r <= Height
    ensures r < Height ==> !Fits(b, p, x, r)
    ensures forall z | y <= z < r :: Fits(b, p, x, z)
    // the board never decreases here: naming it keeps the verifier from unrolling
    // a call whose counter is a constant
    decreases Height - y, b
  {
    if y < Height && Fits(b, p, x, y) then LandingRow(b, p, x, y + 1) else y
  }

  /** The game with the piece moved to the row where a drop from row y + 1 stops. */
  function Landed(g: Game, y: int): (r: Game)
    requires -0x80 <= y <= Height
    ensures r.posy == LandingRow(g.board, g.piece, g.posx, y) && r.(posy := g.posy) == g
  {
    g.(posy := LandingRow(g.board, g.piece, g.posx, y))
  }

  /**
   * An instant drop from a row of the board locks the piece exactly once,
   * at the first row below it where the piece does not fit.
   */
  lemma {:induction false} DropLands(g: Game)
    requires g.piece != 0 && 0 <= g.posy < Height
    ensures InstantDrop(g) == Lock(Landed(g, g.posy + 1))
    decreases Height - g.posy, 1
  {
    if Fits(g.board, g.piece, g.posx, g.posy + 1) {
      DropMoves(g);
    } else {
      DropLocks(g);
      assert Landed(g, g.posy + 1) == g.(posy := g.posy + 1);
    }
  }

  /** The step of DropLands where the piece falls a row: the drop goes on from there. */
  lemma {:induction false} DropMoves(g: Game)
    requires g.piece != 0 && 0 <= g.posy < Height && Fits(g.board, g.piece, g.posx, g.posy + 1)
    ensures InstantDrop(g) == Lock(Landed(g, g.posy + 1))
    decreases Height - g.posy, 0
  {
    var y := g.posy + 1;
    FitsAboveFloor(g.board, g.piece, g.posx, y);
    DropFalls(g);
    var down := g.(posy := y);
    DropLands(down);
    assert Landed(down, y + 1) == Landed(g, y);
  }

  /** One fall of an instant drop that moves the piece down a row of the board. */
  lemma DropFalls(g: Game)
    requires 0 <= g.posy && g.posy + 1 < Height && Fits(g.board, g.piece, g.posx, g.posy + 1)
    ensures InstantDrop(g) == InstantDrop(g.(posy := g.posy + 1))
  {
    assert ToI8(g.posy + 1) == g.posy + 1;
    assert Fall(g) == Running(g.(posy := g.posy + 1));
  }

  /** The fall of an instant drop where the piece no longer fits: the drop ends with that lock. */
  lemma DropLocks(g: Game)
    requires 0 <= g.posy < Height && !Fits(g.board, g.piece, g.posx, g.posy + 1)
    ensures InstantDrop(g) == Lock(g.(posy := g.posy + 1))
  {
    FallLocks(g);
    LockLeavesTop(g.(posy := g.posy + 1));
    DropEnds(g);
  }

  /** A fall onto a row of the board where the piece does not fit is the lock there. */
  lemma FallLocks(g: Game)
    requires 0 <= g.posy < Height && !Fits(g.board, g.piece, g.posx, g.posy + 1)
    ensures Fall(g) == Lock(g.(posy := g.posy + 1))
  {
    assert ToI8(g.posy + 1) == g.posy + 1;
  }

  /** A lock that goes on leaves the new piece at row 0. */
  lemma LockLeavesTop(h: Game)
    ensures !Lock(h).Running? || Lock(h).game.posy == 0
  {
  }

  /** An instant drop stops after a fall that halts, faults, or leaves the piece at row 0. */
  lemma DropEnds(g: Game)
    requires !Fall(g).Running? || Fall(g).game.posy == 0
    ensures InstantDrop(g) == Fall(g)
  {
  }

  /**
   * When the piece fits where it stands on a row of the board, the lock of
   * the next fall never toggles a cell outside the board: tetris_xor only
   * merges the bottom two box rows, one row above where the check saw them.
   */
  lemma LockInBounds(g: Game)
    requires Placed(g) && 0 <= g.posy
    ensures Fall(g) != Undefined(ToggleOutsideBoard)
  {
    var y := ToI8(g.posy + 1);
    if !Fits(g.board, g.piece, g.posx, y) {
      MergeAtNextRow(g.board, g.piece, g.posx, g.posy);
      LockOnBoard(g.(posy := y));
    }
  }

  /**
   * A piece that fits on a row of the board but not one row lower is
   * nonempty, so it stands above row 19, the int8_t `posy + 1` does not
   * wrap, and the lower row is where every merged cell is on the board.
   */
  lemma MergeAtNextRow(b: Board, p: bv16, x: i8, y: i8)
    requires Fits(b, p, x, y) && 0 <= y && !Fits(b, p, x, ToI8(y + 1))
    ensures ToI8(y + 1) == y + 1 && MergeOnBoard(p, x, ToI8(y + 1))
  {
    CheckEmptyPiece(b, x, ToI8(y + 1));
    FitsAboveFloor(b, p, x, y);
    MergeBelowFit(b, p, x, y);
  }

  /** A lock whose merged cells all lie on the board does not toggle a cell outside it. */
  lemma LockOnBoard(g: Game)
    requires MergeOnBoard(g.piece, g.posx, g.posy)
    ensures Lock(g) != Undefined(ToggleOutsideBoard)
  {
    XorCells(g.board, g.piece, g.posx, g.posy);
    LockOutcome(g);
  }

  /**
   * tetris_hold(): with nothing held, hold the piece and bring in the next;
   * otherwise swap the piece and the held one. Either way respawn.
   */
  function Hold(g: Game): (r: Outcome)
    ensures !r.Undefined? && r.game.posx == 3 && r.game.posy == 0
    ensures r.game.board == g.board && r.game.linesCleared == g.linesCleared
    ensures r.Running? <==> Fits(g.board, r.game.piece, 3, 0)
    ensures g.hold == 0 ==>
      && r.game.hold == g.piece && r.game.hi == g.pi
      && r.game.piece == g.next && r.game.pi == g.ni
      && r.game.ni < Shapes && r.game.next == Piece(r.game.ni) && r.game.seed == NextSeed(g.seed)
    ensures g.hold != 0 ==>
      && r.game.hold == g.piece && r.game.hi == g.pi
      && r.game.piece == g.hold && r.game.pi == g.hi
      && r.game.next == g.next && r.game.ni == g.ni && r.game.seed == g.seed
  {
    if g.hold == 0 then
      MoveUp(DrawNext(g.(hold := g.piece, hi := g.pi, piece := g.next, pi := g.ni)))
    else
      MoveUp(g.(piece := g.hold, pi := g.hi, hold := g.piece, hi := g.pi))
  }

  /** Two swapping holds in a row restore piece, pi, hold and hi, and leave the piece at the spawn point. */
  lemma HoldTwice(g: Game)
    requires g.hold != 0 && g.piece != 0
    requires Hold(g).Running? && Hold(Hold(g).game).Running?
    ensures Hold(Hold(g).game) == Running(g.(posx := 3, posy := 0))
  {
  }

  /** The empty board takes any bitmap at any origin whose box lies on the board. */
  lemma EmptyFits(p: bv16, x: int, y: int)
    requires 0 <= x <= Width - 4 && 0 <= y <= Height - 4
    ensures Fits(EmptyBoard, p, x, y)
  {
    EmptyBoardIsEmpty();
    forall k | 0 <= k < 16
      ensures CellFits(EmptyBoard, p, x, y, k)
    {
      var cx: u8, cy: u8 := x + k % 4, y + k / 4;
      assert !Get(EmptyBoard, cx, cy);
    }
  }

  /**
   * tetris_init(): clear the board and the held piece, draw the first
   * piece and the next one, spawn, zero the line counter. On the empty
   * board the spawn always succeeds.
   */
  function Init(g: Game): (r: Outcome)
    ensures r.Running?
    ensures r.game.board == EmptyBoard && r.game.hold == 0 && r.game.linesCleared == 0 && r.game.hi == g.hi
    ensures r.game.posx == 3 && r.game.posy == 0 && Placed(r.game)
    ensures r.game.pi < Shapes && r.game.piece == Piece(r.game.pi)
    ensures r.game.ni < Shapes && r.game.next == Piece(r.game.ni)
    ensures r.game.seed == NextSeed(NextSeed(g.seed))
  {
    EmptyFits(DrawNext(Cleared(g, EmptyBoard)).next, 3, 0);
    Deal(DrawNext(Cleared(g, EmptyBoard)))
  }

  /** The first two statements of tetris_init: the board `b` (all zero) and no held piece. */
  function Cleared(g: Game, b: Board): (r: Game)
    ensures r.board == b && r.hold == 0 && r.(board := g.board, hold := g.hold) == g
  {
    g.(board := b, hold := 0)
  }

  /** The rest of tetris_init once the first piece is drawn: make it current, draw the next, spawn, zero the counter. */
  function Deal(g: Game): (r: Outcome)
    ensures !r.Undefined?
    ensures r.game.piece == g.next && r.game.pi == g.ni && r.game.posx == 3 && r.game.posy == 0
    ensures r.game.(ni := g.ni, next := g.next, seed := g.seed, piece := g.piece, pi := g.pi, posx := g.posx, posy := g.posy, linesCleared := g.linesCleared)
      == g
    ensures r.Running? <==> Fits(g.board, g.next, 3, 0)
    ensures r.Running? ==> r.game.linesCleared == 0
    ensures r.game.ni < Shapes && r.game.next == Piece(r.game.ni) && r.game.seed == NextSeed(g.seed)
  {
    var second := DrawNext(g.(piece := g.next, pi := g.ni));
    match MoveUp(second)
    case Running(h) => Running(h.(linesCleared := 0))
    case Halted(h) => Halted(h)
    case Undefined(f) => Undefined(f)
  }

  /**
   * The state main() hands to tetris_init (tetris.c:382-383): the globals
   * zero as C statics start, the seed set to 4.
   */
  const PowerOn: Game := Game(EmptyBoard, 0, 0, 0, 0, 0, 0, 0, 0, 0, 4)

  /** The first game: the piece of slot 4 at the spawn point, slot 0 (the square) next. */
  lemma FirstGame()
    ensures Init(PowerOn).Running?
    ensures Init(PowerOn).game.pi == 4 && Init(PowerOn).game.piece == 0x06c0
    ensures Init(PowerOn).game.ni == 0 && Init(PowerOn).game.next == 0x0660
  {
    DrawsFromSeedFour();
  }
}

=== FILE: errors.dfy ===
/**
 * The places where the engine leaves defined behaviour. The C code never
 * detects these; each one is an array access outside its bounds.
 */
module Errors {

  datatype Fault =
      /** tetris_xor handed set_board a cell whose index is 200 or more (past `board[25]`) */
    | ToggleOutsideBoard
      /** a rotation loaded `pieces[32]`, one past the 32-entry table */
    | RotationPastTable
      /** a collapse pass of tetris_clear_lines walked on to row 20 (past `board[25]`) */
    | CollapsePastBoard

  /** A computation that either yields a value or reaches a fault. */
  datatype Result<T> = Ok(value: T) | Err(fault: Fault)
}

=== FILE: fixed_width.dfy ===
/**
 * The fixed-width integer types of the engine (uint8_t, uint16_t, int8_t on
 * an 8-bit AVR) and the bit masks used to walk a byte or a 16-bit piece
 * bitmap one bit at a time.
 */
module FixedWidth {

  type u8 = x: int | 0 <= x < 0x100
  type u16 = x: int | 0 <= x < 0x1_0000
  type i8 = x: int | -0x80 <= x < 0x80

  /** Conversion of an int to int8_t: two's-complement wrap-around. */
  function ToI8(v: int): (r: i8)
    ensures -0x80 <= v < 0x80 ==> r == v
    ensures 0x80 <= v < 0x180 ==> r == v - 0x100
    ensures -0x180 <= v < -0x80 ==> r == v + 0x100
  {
    (v + 0x80) % 0x100 - 0x80
  }

  /** Conversion of an int to uint8_t (a parameter of type u8 receiving an int). */
  function ToU8(v: int): (r: u8)
    ensures 0 <= v < 0x100 ==> r == v
    ensures -0x100 <= v < 0 ==> r == v + 0x100
  {
    v % 0x100
  }

  /** The byte `1 << k`. */
  function Pow8(k: nat): bv8
    requires k < 8
  {
    match k
    case 0 => 0x01 case 1 => 0x02 case 2 => 0x04 case 3 => 0x08
    case 4 => 0x10 case 5 => 0x20 case 6 => 0x40 case _ => 0x80
  }

  /** The 16-bit word `0x8000 >> k`: bit 15 - k alone. */
  function Top16(k: nat): bv16
    requires k < 16
  {
    match k
    case 0 => 0x8000 case 1 => 0x4000 case 2 => 0x2000 case 3 => 0x1000
    case 4 => 0x0800 case 5 => 0x0400 case 6 => 0x0200 case 7 => 0x0100
    case 8 => 0x0080 case 9 => 0x0040 case 10 => 0x0020 case 11 => 0x0010
    case 12 => 0x0008 case 13 => 0x0004 case 14 => 0x0002 case _ => 0x0001
  }

  /** Bit 15 - j of a 16-bit word: the j-th bit met when walking from the top. */
  predicate TopBit(w: bv16, j: nat)
    requires j < 16
  {
    w & Top16(j) != 0
  }

  /** `t` after `n` executions of `t <<= 1` on a 16-bit variable. */
  function ShiftedLeft(t: bv16, n: nat): bv16
  {
    if n == 0 then t else ShiftedLeft(t, n - 1) << 1
  }

  /** One left shift moves bit 15 - (j + 1) to bit 15 - j and clears bit 0. */
  lemma ShiftStep(t: bv16, j: nat)
    requires j < 16
    ensures TopBit(t << 1, j) <==> j < 15 && TopBit(t, j + 1)
  {
  }

  /** The first of n + 1 shifts can be done before the other n. */
  lemma {:induction false} ShiftFirst(t: bv16, n: nat)
    ensures ShiftedLeft(t, n + 1) == ShiftedLeft(t << 1, n)
  {
    if n > 0 {
      ShiftFirst(t, n - 1);
    }
  }

  /** After n < 16 shifts, bit 15 (`t & 0x8000`) holds what bit 15 - n held. */
  lemma {:induction false} ShiftedTop(t: bv16, n: nat)
    requires n < 16
    ensures (ShiftedLeft(t, n) & 0x8000 != 0) == TopBit(t, n)
    decreases n
  {
    if n > 0 {
      ShiftFirst(t, n - 1);
      ShiftedTop(t << 1, n - 1);
      ShiftStep(t, n - 1);
    }
  }

  /**
   * After n shifts, bit 7 (`t & 0x80`) holds what bit 7 - n held while
   * n < 8, and a shifted-in zero after that.
   */
  lemma {:induction false} ShiftedLow(t: bv16, n: nat)
    requires n < 16
    ensures (ShiftedLeft(t, n) & 0x80 != 0) == (n < 8 && TopBit(t, n + 8))
    decreases n
  {
    if n > 0 {
      ShiftFirst(t, n - 1);
      ShiftedLow(t << 1, n - 1);
      if n <= 8 {
        ShiftStep(t, n + 7);
      }
    }
  }
}

=== FILE: grid.dfy ===
/**
 * The 10 x 20 board. The C program packs it into `u8 board[25]`
 * (tetris.c:26): cell (x, y) is bit number `t = y * 10 + x`, stored in byte
 * `t >> 3` at bit `t & 7`. The game logic here works on the 200 cells as a
 * sequence of booleans indexed by `t`; the packed array, get_board and
 * set_board (tetris.c:142-153) are modelled below it, and Unpack proves the
 * two views agree cell for cell.
 */
module Grid {
  import opened FixedWidth

  const Width := 10
  const Height := 20

  /** The cells of the board, bit number t of the packed array at index t; true is occupied. */
  type Board = b: seq<bool> | |b| == 200 witness seq(200, _ => false)

  /** n empty cells. */
  function Empty(n: nat): (r: seq<bool>)
    ensures |r| == n && forall t | 0 <= t < n :: !r[t]
  {
    seq(n, _ => false)
  }

  /** The board with every cell empty. */
  const EmptyBoard: Board := Empty(200)

  predicate OnBoard(x: int, y: int)
  {
    0 <= x < Width && 0 <= y < Height
  }

  /** The uint8_t index `(y << 3) + (y << 1) + x` of get_board/set_board. */
  function CellIndex(x: u8, y: u8): (t: u8)
    ensures OnBoard(x, y) ==> t == 10 * y + x
  {
    (y * 8 + y * 2 + x) % 0x100
  }

  /**
   * get_board on a cell of the board, where CellIndex(x, y) is 10 * y + x.
   * The C function reads bit CellIndex(x, y) whatever x and y are;
   * tetris_check and tetris_clear_lines only pass cells of the board, and
   * tetris_xor, which may not, is modelled on the index itself.
   */
  function Get(b: Board, x: u8, y: u8): bool
    requires OnBoard(x, y)
  {
    b[10 * y + x]
  }

  /** set_board on a cell of the board: writes cell (x, y) and no other cell. */
  function Set(b: Board, x: u8, y: u8, s: bool): (r: Board)
    requires OnBoard(x, y)
    ensures Get(r, x, y) == s
    ensures forall x': u8, y': u8 | OnBoard(x', y') && (x' != x || y' != y) :: Get(r, x', y') == Get(b, x', y')
  {
    b[10 * y + x := s]
  }

  lemma EmptyBoardIsEmpty()
    ensures forall x: u8, y: u8 | OnBoard(x, y) :: !Get(EmptyBoard, x, y)
  {
  }

  /** Every index below 200 is a cell of the board, so boards that agree on all cells are equal. */
  lemma SameCellsSameBoard(b: Board, b': Board)
    requires forall x: u8, y: u8 | OnBoard(x, y) :: Get(b, x, y) == Get(b', x, y)
    ensures b == b'
  {
    forall t | 0 <= t < 200
      ensures b[t] == b'[t]
    {
      var x: u8, y: u8 := t % 10, t / 10;
      assert Get(b, x, y) == Get(b', x, y);
    }
  }

  /** The C array `u8 board[25]`. */
  type Packed = p: seq<bv8> | |p| == 25 witness seq(25, _ => 0)

  /** Bit k of a byte. */
  predicate ByteBit(v: bv8, k: nat)
    requires k < 8
  {
    v & Pow8(k) != 0
  }

  /** A byte after `v &= ~(1 << k); if (s) v |= 1 << k;`. */
  function WithBit(v: bv8, k: nat, s: bool): bv8
    requires k < 8
  {
    var cleared := v & !Pow8(k);
    if s then cleared | Pow8(k) else cleared
  }

  lemma WithBitSame(v: bv8, k: nat, s: bool)
    requires k < 8
    ensures ByteBit(WithBit(v, k, s), k) == s
  {
  }

  lemma WithBitOther(v: bv8, k: nat, s: bool, j: nat)
    requires k < 8 && j < 8 && j != k
    ensures ByteBit(WithBit(v, k, s), j) == ByteBit(v, j)
  {
  }

  /** get_board's read `(board[t >> 3] & (1 << (t & 7))) >> (t & 7)` of bit t. */
  function PackedCell(p: Packed, t: nat): bool
    requires t < 200
  {
    ByteBit(p[t / 8], t % 8)
  }

  /** set_board's write of bit t: clear it, then set it when `s`. */
  function PackedSet(p: Packed, t: nat, s: bool): Packed
    requires t < 200
  {
    p[t / 8 := WithBit(p[t / 8], t % 8, s)]
  }

  /** The board the packed array holds. */
  function Unpack(p: Packed): (b: Board)
    ensures forall t | 0 <= t < 200 :: b[t] == PackedCell(p, t)
  {
    seq(200, t requires 0 <= t < 200 => PackedCell(p, t))
  }

  /**
   * get_board(x, y) on the packed array reads byte `t >> 3`, one of the 25,
   * and finds there cell (x, y) of the board the array holds.
   */
  lemma GetBoardUnpacked(p: Packed, x: u8, y: u8)
    requires OnBoard(x, y)
    ensures CellIndex(x, y) / 8 < 25
    ensures PackedCell(p, CellIndex(x, y)) == Get(Unpack(p), x, y)
  {
  }

  /** set_board(x, y, s) on the packed array is Set on the board it holds. */
  lemma SetBoardUnpacked(p: Packed, x: u8, y: u8, s: bool)
    requires OnBoard(x, y)
    ensures Unpack(PackedSet(p, CellIndex(x, y), s)) == Set(Unpack(p), x, y, s)
  {
    var t := CellIndex(x, y);
    var r := Unpack(PackedSet(p, t, s));
    forall u | 0 <= u < 200
      ensures r[u] == Unpack(p)[t := s][u]
    {
      if u == t {
        WithBitSame(p[t / 8], t % 8, s);
      } else if u / 8 == t / 8 {
        WithBitOther(p[t / 8], t % 8, s, u % 8);
      }
    }
  }

  /** `m` when the bit is set, 0 otherwise. */
  function Mask(on: bool, m: bv8): bv8
  {
    if on then m else 0
  }

  /** A byte is the sum of its eight bits. */
  lemma ByteFromBits(v: bv8)
    ensures v == Mask(ByteBit(v, 0), 1) | Mask(ByteBit(v, 1), 2) | Mask(ByteBit(v, 2), 4) | Mask(ByteBit(v, 3), 8)
      | Mask(ByteBit(v, 4), 16) | Mask(ByteBit(v, 5), 32) | Mask(ByteBit(v, 6), 64) | Mask(ByteBit(v, 7), 128)
  {
  }

  lemma SameBitsSameByte(v: bv8, w: bv8)
    requires forall k | 0 <= k < 8 :: ByteBit(v, k) == ByteBit(w, k)
    ensures v == w
  {
    ByteFromBits(v);
    ByteFromBits(w);
  }

  /** 25 bytes hold exactly 200 bits: two packed arrays holding the same board are the same array. */
  lemma UnpackInjective(p: Packed, p': Packed)
    requires Unpack(p) == Unpack(p')
    ensures p == p'
  {
    forall i | 0 <= i < 25
      ensures p[i] == p'[i]
    {
      forall k | 0 <= k < 8
        ensures ByteBit(p[i], k) == ByteBit(p'[i], k)
      {
        var t := 8 * i + k;
        assert Unpack(p)[t] == Unpack(p')[t];
      }
      SameBitsSameByte(p[i], p'[i]);
    }
  }

  /** `for (i = 0; i < 25; i++) board[i] = 0;` (tetris.c:168) empties every cell. */
  lemma ZeroedIsEmpty()
    ensures Unpack(seq(25, _ => 0)) == EmptyBoard
  {
    var z: Packed := seq(25, _ => 0);
    forall t | 0 <= t < 200
      ensures !PackedCell(z, t)
    {
      assert z[t / 8] == 0;
    }
  }
}

=== FILE: line_clear.dfy ===
/**
 * tetris_clear_lines (tetris.c:186-212). A first loop counts the full rows
 * into `ltc` and `lines_cleared`; then `ltc` collapse passes each walk down
 * the board from row 0, shifting every cell one row down through the 16-bit
 * register `cl`, until `cl == 0x3ff` after a row.
 *
 * As written, the stop test compares the whole register, not its low ten
 * bits: after row y the register also holds columns 4 .. 9 of the old row
 * y - 1 in bits 10 .. 15. A pass therefore stops at the first row y that is
 * full and has y == 0 or columns 4 .. 9 of row y - 1 empty; when no row
 * qualifies it walks on to row 20, outside `board`.
 */
module LineClear {
  import opened FixedWidth
  import opened Grid
  import opened Errors

  /** `cl <<= 1; cl += get_board(i, l);` */
  function ShiftIn(cl: bv16, cell: bool): bv16
  {
    (cl << 1) + (if cell then 1 else 0)
  }

  /** Bit 15 of the register is the cell shifted in; bits 0 .. 14 are those of `cl << 1`. */
  lemma ShiftInLow(cl: bv16, cell: bool, j: nat)
    requires j < 16
    ensures TopBit(ShiftIn(cl, cell), j) == if j == 15 then cell else TopBit(cl << 1, j)
  {
  }

  lemma ShiftInBit(cl: bv16, cell: bool, j: nat)
    requires j < 16
    ensures TopBit(ShiftIn(cl, cell), j) == if j == 15 then cell else TopBit(cl, j + 1)
  {
    ShiftInLow(cl, cell, j);
    ShiftStep(cl, j);
  }

  /** `cl == 0x3ff`: the low ten bits set and the top six clear. */
  lemma WordIs3ff(w: bv16)
    ensures w == 0x3ff <==> forall j | 0 <= j < 16 :: TopBit(w, j) == (j >= 6)
  {
    if w == 0x3ff {
      forall j | 0 <= j < 16
        ensures TopBit(w, j) == (j >= 6)
      {
      }
    } else {
      assert !(!TopBit(w, 0) && !TopBit(w, 1) && !TopBit(w, 2) && !TopBit(w, 3) && !TopBit(w, 4) && !TopBit(w, 5)
        && TopBit(w, 6) && TopBit(w, 7) && TopBit(w, 8) && TopBit(w, 9) && TopBit(w, 10)
        && TopBit(w, 11) && TopBit(w, 12) && TopBit(w, 13) && TopBit(w, 14) && TopBit(w, 15));
    }
  }

  /** `(cl & 0x3ff) == 0x3ff`: the low ten bits set. */
  lemma LowTenBits(w: bv16)
    ensures w & 0x3ff == 0x3ff <==> forall j | 6 <= j < 16 :: TopBit(w, j)
  {
    if w & 0x3ff == 0x3ff {
      forall j | 6 <= j < 16
        ensures TopBit(w, j)
      {
      }
    } else {
      assert !(TopBit(w, 6) && TopBit(w, 7) && TopBit(w, 8) && TopBit(w, 9) && TopBit(w, 10)
        && TopBit(w, 11) && TopBit(w, 12) && TopBit(w, 13) && TopBit(w, 14) && TopBit(w, 15));
    }
  }

  /** All ten cells of row y are occupied. */
  predicate RowFull(b: Board, y: nat)
    requires y < Height
  {
    forall x: u8 | x < Width :: Get(b, x, y)
  }

  /** Columns 4 .. 9 of row y are empty. */
  predicate RightSideEmpty(b: Board, y: nat)
    requires y < Height
  {
    forall x: u8 | 4 <= x < Width :: !Get(b, x, y)
  }

  /** The full rows among rows y .. 19. */
  function FullRowSet(b: Board, y: nat): set<nat>
    requires y <= Height
  {
    set r: nat | y <= r < Height && RowFull(b, r)
  }

  /** Number of full rows among rows y .. 19. */
  function FullRows(b: Board, y: nat): nat
    requires y <= Height
  {
    |FullRowSet(b, y)|
  }

  lemma FullRowsStep(b: Board, y: nat)
    requires y <= Height
    ensures y == Height ==> FullRows(b, y) == 0
    ensures y < Height ==> FullRows(b, y) == (if RowFull(b, y) then 1 else 0) + FullRows(b, y + 1)
  {
    if y == Height {
      assert FullRowSet(b, y) == {};
    } else {
      var rest := FullRowSet(b, y + 1);
      assert y !in rest;
      if RowFull(b, y) {
        assert FullRowSet(b, y) == rest + {y};
      } else {
        assert FullRowSet(b, y) == rest;
      }
    }
  }

  /** Iterations i .. 9 of `for (i = 0; i < 10; i++) { cl <<= 1; cl += get_board(i, l); }`. */
  function ScanRow(b: Board, cl: bv16, y: nat, i: nat): bv16
    requires y < Height && i <= Width
    // the board never decreases here: naming it keeps the verifier from unrolling
    // a call whose counter is a constant
    decreases Width - i, b
  {
    if i == Width then cl else ScanRow(b, ShiftIn(cl, Get(b, i, y)), y, i + 1)
  }

  /**
   * After the row, the register holds its old bits 10 - i .. 15 - i in bits
   * 10 .. 15 and cells i .. 9 of the row below them, column 9 in bit 0.
   */
  lemma {:induction false} ScanRowBits(b: Board, cl: bv16, y: nat, i: nat, j: nat)
    requires y < Height && i <= Width && j < 16
    ensures TopBit(ScanRow(b, cl, y, i), j) == if j < 6 + i then TopBit(cl, j + 10 - i) else Get(b, j - 6, y)
    decreases Width - i
  {
    if i < Width {
      var c := ShiftIn(cl, Get(b, i, y));
      ScanRowBits(b, c, y, i + 1, j);
      if j < 7 + i {
        ShiftInBit(cl, Get(b, i, y), j + 9 - i);
      }
    }
  }

  /** The first loop's test `(cl & 0x3ff) == 0x3ff` after row y: row y is full. */
  lemma ScanRowFull(b: Board, cl: bv16, y: nat)
    requires y < Height
    ensures ScanRow(b, cl, y, 0) & 0x3ff == 0x3ff <==> RowFull(b, y)
  {
    var r := ScanRow(b, cl, y, 0);
    LowTenBits(r);
    forall j | 6 <= j < 16 ensures TopBit(r, j) == Get(b, j - 6, y) {
      ScanRowBits(b, cl, y, 0, j);
    }
    if RowFull(b, y) {
      forall j | 6 <= j < 16 ensures TopBit(r, j) {
        assert Get(b, j - 6, y);
      }
    } else {
      var x: u8 :| x < Width && !Get(b, x, y);
      assert !TopBit(r, x + 6);
    }
  }

  /** Adding to a 16-bit counter one step at a time wraps like adding at once. */
  lemma CounterStep(lines: u16, full: bool, rest: nat, total: nat, counted: int)
    requires total == (if full then 1 else 0) + rest
    requires counted == ((if full then (lines + 1) % 0x1_0000 else lines) + rest) % 0x1_0000
    ensures counted == (lines + total) % 0x1_0000
  {
    if full && lines == 0xffff {
      assert lines + 1 + rest == rest + 0x1_0000;
    }
  }

  /**
   * Rows y .. 19 of the first loop: `ltc` and the 16-bit `lines_cleared`
   * each grow by one per full row.
   */
  function ScanFrom(b: Board, cl: bv16, y: nat, ltc: nat, lines: u16): (r: (nat, u16))
    requires y <= Height
    ensures r.0 == ltc + FullRows(b, y)
    ensures r.1 == (lines + FullRows(b, y)) % 0x1_0000
    // the board never decreases here: naming it keeps the verifier from unrolling
    // a call whose counter is a constant
    decreases Height - y, b
  {
    FullRowsStep(b, y);
    if y == Height then (ltc, lines)
    else
      var cl' := ScanRow(b, cl, y, 0);
      ScanRowFull(b, cl, y);
      var full := cl' & 0x3ff == 0x3ff;
      var r := ScanFrom(b, cl', y + 1, ltc + (if full then 1 else 0), if full then (lines + 1) % 0x1_0000 else lines);
      CounterStep(lines, full, FullRows(b, y + 1), FullRows(b, y), r.1);
      r
  }

  /**
   * Iterations i .. 9 of the inner loop of a collapse pass: shift cell
   * (i, l) into the register and store bit 10 of the register into it.
   */
  function CollapseRow(b: Board, cl: bv16, y: nat, i: nat): (Board, bv16)
    requires y < Height && i <= Width
    // the board never decreases here: naming it keeps the verifier from unrolling
    // a call whose counter is a constant
    decreases Width - i, b
  {
    if i == Width then (b, cl)
    else
      var c := ShiftIn(cl, Get(b, i, y));
      CollapseRow(Set(b, i, y, (c >> 10) & 1 == 1), c, y, i + 1)
  }

  /** `(cl >> 10) & 1` after the shift is bit 9 of the register before it. */
  lemma WrittenBit(cl: bv16, cell: bool)
    ensures ((ShiftIn(cl, cell) >> 10) & 1 == 1) == TopBit(cl, 6)
  {
    ShiftInBit(cl, cell, 5);
    assert ((ShiftIn(cl, cell) >> 10) & 1 == 1) == TopBit(ShiftIn(cl, cell), 5);
  }

  /** ScanRow from cell k on reads only cells k .. 9 of row y. */
  lemma {:induction false} ScanRowFrame(b: Board, b': Board, cl: bv16, y: nat, k: nat)
    requires y < Height && k <= Width
    requires forall x: u8 | k <= x < Width :: Get(b, x, y) == Get(b', x, y)
    ensures ScanRow(b, cl, y, k) == ScanRow(b', cl, y, k)
    decreases Width - k
  {
    if k < Width {
      assert Get(b, k, y) == Get(b', k, y);
      ScanRowFrame(b, b', ShiftIn(cl, Get(b, k, y)), y, k + 1);
    }
  }

  /** The register after a collapse row is the one the counting loop computes. */
  lemma {:induction false} CollapseRegister(b: Board, cl: bv16, y: nat, i: nat)
    requires y < Height && i <= Width
    ensures CollapseRow(b, cl, y, i).1 == ScanRow(b, cl, y, i)
    decreases Width - i
  {
    if i < Width {
      var c := ShiftIn(cl, Get(b, i, y));
      var b' := Set(b, i, y, (c >> 10) & 1 == 1);
      assert CollapseRow(b, cl, y, i) == CollapseRow(b', c, y, i + 1);
      CollapseRegister(b', c, y, i + 1);
      ScanRowFrame(b, b', c, y, i + 1);
    }
  }

  /** Collapsing row y from cell i on touches no cell of another row and no cell left of i. */
  lemma {:induction false} CollapseFrame(b: Board, cl: bv16, y: nat, i: nat, x: u8, y': u8)
    requires y < Height && i <= Width && OnBoard(x, y')
    requires y' != y || x < i
    ensures Get(CollapseRow(b, cl, y, i).0, x, y') == Get(b, x, y')
    decreases Width - i
  {
    if i < Width {
      var c := ShiftIn(cl, Get(b, i, y));
      CollapseFrame(Set(b, i, y, (c >> 10) & 1 == 1), c, y, i + 1, x, y');
    }
  }

  /** Cell (i, y) receives bit 9 of the register it is shifted into. */
  lemma CollapseFirstCell(b: Board, cl: bv16, y: nat, i: nat)
    requires y < Height && i < Width
    ensures Get(CollapseRow(b, cl, y, i).0, i, y) == TopBit(cl, 6)
  {
    var c := ShiftIn(cl, Get(b, i, y));
    var b' := Set(b, i, y, (c >> 10) & 1 == 1);
    CollapseFrame(b', c, y, i + 1, i, y);
    WrittenBit(cl, Get(b, i, y));
  }

  /** Collapsing row y from cell i on writes bit 9 - (x - i) of the register into cell (x, y). */
  lemma {:induction false} CollapseRowCell(b: Board, cl: bv16, y: nat, i: nat, x: u8)
    requires y < Height && i <= x < Width
    ensures Get(CollapseRow(b, cl, y, i).0, x, y) == TopBit(cl, 6 + x - i)
    decreases Width - i
  {
    if i < x {
      var c := ShiftIn(cl, Get(b, i, y));
      CollapseRowCell(Set(b, i, y, (c >> 10) & 1 == 1), c, y, i + 1, x);
      ShiftInBit(cl, Get(b, i, y), 5 + x - i);
    } else {
      CollapseFirstCell(b, cl, y, i);
    }
  }

  /** Collapsing row y writes bit 9 - x of the register into cell (x, y) and touches no other row. */
  lemma CollapseCell(b: Board, cl: bv16, y: nat, i: nat, x: u8, y': u8)
    requires y < Height && i <= Width && OnBoard(x, y')
    ensures Get(CollapseRow(b, cl, y, i).0, x, y')
      == if y' == y && i <= x then TopBit(cl, 6 + x - i) else Get(b, x, y')
  {
    if y' == y && i <= x {
      CollapseRowCell(b, cl, y, i, x);
    } else {
      CollapseFrame(b, cl, y, i, x, y');
    }
  }

  /** Rows 0 .. n - 1 of b hold rows -1 .. n - 2 of b0 (row -1 being empty); rows n .. 19 are b0's. */
  predicate RowsShifted(b0: Board, b: Board, n: nat)
  {
    forall x: u8, y: u8 {:trigger Get(b, x, y)} | OnBoard(x, y) ::
      Get(b, x, y) == if y < n then (y > 0 && Get(b0, x, y - 1)) else Get(b0, x, y)
  }

  /** A collapse pass stops after row y. */
  predicate StopsAt(b: Board, y: nat)
    requires y < Height
  {
    RowFull(b, y) && (y == 0 || RightSideEmpty(b, y - 1))
  }

  /** The first row y' >= y at which a pass over b stops, or 20 when there is none. */
  function FirstStop(b: Board, y: nat): (r: nat)
    requires y <= Height
    // the board never decreases here: naming it keeps the verifier from unrolling
    // a call whose counter is a constant
    decreases Height - y, b
  {
    if y == Height then Height else if StopsAt(b, y) then y else FirstStop(b, y + 1)
  }

  /** `while (cl != 0x3ff) { ... l++; }` from row y on; row 20 is outside the board. */
  function CollapseFrom(b: Board, cl: bv16, y: nat): (r: Result<Board>)
    requires y <= Height
    ensures r.Err? ==> r.fault == CollapsePastBoard
    // the board never decreases here: naming it keeps the verifier from unrolling
    // a call whose counter is a constant
    decreases Height - y, b
  {
    if y == Height then Err(CollapsePastBoard)
    else
      var next := CollapseRow(b, cl, y, 0);
      if next.1 == 0x3ff then Ok(next.0) else CollapseFrom(next.0, next.1, y + 1)
  }

  /** Cell (x, y - 1) of b0, taken as empty for y = 0: what a pass carries into row y. */
  predicate Above(b0: Board, x: nat, y: nat)
    requires x < Width && y <= Height
  {
    y > 0 && Get(b0, x, y - 1)
  }

  /** Entering row y, bits 0 .. 9 of the register hold row y - 1 of b0, column 0 in bit 9. */
  predicate Carries(b0: Board, cl: bv16, y: nat)
    requires y <= Height
  {
    forall j | 6 <= j < 16 :: TopBit(cl, j) == Above(b0, j - 6, y)
  }

  /**
   * After row y, bits 10 .. 15 of the register hold columns 4 .. 9 of row
   * y - 1 and bits 0 .. 9 hold row y.
   */
  predicate RowRegister(b0: Board, r: bv16, y: nat)
    requires y < Height
  {
    forall j | 0 <= j < 16 :: TopBit(r, j) == if j < 6 then Above(b0, j + 4, y) else Get(b0, j - 6, y)
  }

  /** Such a register reads 0x3ff exactly when a pass stops at row y. */
  lemma StopWord(b0: Board, r: bv16, y: nat)
    requires y < Height && RowRegister(b0, r, y)
    ensures r == 0x3ff <==> StopsAt(b0, y)
  {
    WordIs3ff(r);
    if r == 0x3ff {
      forall x: u8 | x < Width ensures Get(b0, x, y) {
        assert TopBit(r, x + 6);
      }
      if y > 0 {
        var above := y - 1;
        forall x: u8 | 4 <= x < Width ensures !Get(b0, x, above) {
          assert !TopBit(r, x - 4);
        }
      }
    }
    if StopsAt(b0, y) {
      forall j | 0 <= j < 16 ensures TopBit(r, j) == (j >= 6) {
        if j >= 6 {
          assert Get(b0, j - 6, y);
        } else if y > 0 {
          assert !Get(b0, j + 4, y - 1);
        }
      }
    }
  }

  /** Bit j of the register after row y, in terms of the board before the pass. */
  lemma RegisterBit(b0: Board, b: Board, cl: bv16, y: nat, j: nat)
    requires y < Height && j < 16
    requires RowsShifted(b0, b, y) && Carries(b0, cl, y)
    ensures TopBit(ScanRow(b, cl, y, 0), j) == if j < 6 then Above(b0, j + 4, y) else Get(b0, j - 6, y)
  {
    ScanRowBits(b, cl, y, 0, j);
    if j >= 6 {
      assert Get(b, j - 6, y) == Get(b0, j - 6, y);
    } else {
      assert TopBit(cl, j + 10) == Above(b0, j + 4, y);
    }
  }

  lemma RegisterWord(b0: Board, b: Board, cl: bv16, y: nat)
    requires y < Height
    requires RowsShifted(b0, b, y) && Carries(b0, cl, y)
    ensures RowRegister(b0, ScanRow(b, cl, y, 0), y)
    ensures Carries(b0, ScanRow(b, cl, y, 0), y + 1)
  {
    forall j | 0 <= j < 16
      ensures TopBit(ScanRow(b, cl, y, 0), j) == if j < 6 then Above(b0, j + 4, y) else Get(b0, j - 6, y)
    {
      RegisterBit(b0, b, cl, y, j);
    }
  }

  /** The register after a row reads 0x3ff exactly when the pass stops there. */
  lemma StopTest(b0: Board, b: Board, cl: bv16, y: nat)
    requires y < Height
    requires RowsShifted(b0, b, y) && Carries(b0, cl, y)
    ensures CollapseRow(b, cl, y, 0).1 == 0x3ff <==> StopsAt(b0, y)
  {
    CollapseRegister(b, cl, y, 0);
    RegisterWord(b0, b, cl, y);
    StopWord(b0, ScanRow(b, cl, y, 0), y);
  }

  /** Bit 9 - x of a register entering row y is cell (x, y - 1) of the board before the pass. */
  lemma CarriedBit(b0: Board, cl: bv16, y: nat, x: nat)
    requires y <= Height && x < Width && Carries(b0, cl, y)
    ensures TopBit(cl, x + 6) == Above(b0, x, y)
  {
    assert TopBit(cl, x + 6) == Above(b0, (x + 6) - 6, y);
  }

  /** Row y itself receives the carried row y - 1. */
  lemma StopRowCell(b0: Board, b: Board, cl: bv16, y: nat, x: u8)
    requires y < Height && x < Width && Carries(b0, cl, y)
    ensures Get(CollapseRow(b, cl, y, 0).0, x, y) == Above(b0, x, y)
  {
    CollapseCell(b, cl, y, 0, x, y);
    CarriedBit(b0, cl, y, x);
  }

  /** Rows other than y keep what they held before the row was processed. */
  lemma OtherRowCell(b0: Board, b: Board, cl: bv16, y: nat, x: u8, r: u8)
    requires y < Height && OnBoard(x, r) && r != y && RowsShifted(b0, b, y)
    ensures Get(CollapseRow(b, cl, y, 0).0, x, r) == if r < y then Above(b0, x, r) else Get(b0, x, r)
  {
    CollapseCell(b, cl, y, 0, x, r);
  }

  /** Cell (x, r) after row y of a pass, in terms of the board before the pass. */
  lemma ShiftedCell(b0: Board, b: Board, cl: bv16, y: nat, x: u8, r: u8)
    requires y < Height && OnBoard(x, r)
    requires RowsShifted(b0, b, y) && Carries(b0, cl, y)
    ensures Get(CollapseRow(b, cl, y, 0).0, x, r) == if r < y + 1 then Above(b0, x, r) else Get(b0, x, r)
  {
    if r == y {
      StopRowCell(b0, b, cl, y, x);
    } else {
      OtherRowCell(b0, b, cl, y, x, r);
    }
  }

  /** One row of a pass keeps the shift invariant one row further. */
  lemma CollapseStep(b0: Board, b: Board, cl: bv16, y: nat)
    requires y < Height
    requires RowsShifted(b0, b, y) && Carries(b0, cl, y)
    ensures RowsShifted(b0, CollapseRow(b, cl, y, 0).0, y + 1)
    ensures Carries(b0, CollapseRow(b, cl, y, 0).1, y + 1)
  {
    var b' := CollapseRow(b, cl, y, 0).0;
    forall x: u8, r: u8 | OnBoard(x, r)
      ensures Get(b', x, r) == if r < y + 1 then Above(b0, x, r) else Get(b0, x, r)
    {
      ShiftedCell(b0, b, cl, y, x, r);
    }
    CollapseRegister(b, cl, y, 0);
    RegisterWord(b0, b, cl, y);
  }

  /** One row of the pass against one step of FirstStop. */
  lemma EndsStep(b0: Board, b: Board, cl: bv16, y: nat)
    requires y < Height
    requires CollapseRow(b, cl, y, 0).1 == 0x3ff <==> StopsAt(b0, y)
    requires CollapseFrom(CollapseRow(b, cl, y, 0).0, CollapseRow(b, cl, y, 0).1, y + 1).Ok?
      <==> FirstStop(b0, y + 1) < Height
    ensures CollapseFrom(b, cl, y).Ok? <==> FirstStop(b0, y) < Height
  {
  }

  /** A pass from row y ends inside the board exactly when some row y' >= y stops it. */
  lemma {:induction false} CollapseFromEnds(b0: Board, b: Board, cl: bv16, y: nat)
    requires y <= Height
    requires RowsShifted(b0, b, y) && Carries(b0, cl, y)
    ensures CollapseFrom(b, cl, y).Ok? <==> FirstStop(b0, y) < Height
    decreases Height - y
  {
    if y < Height {
      var next := CollapseRow(b, cl, y, 0);
      StopTest(b0, b, cl, y);
      CollapseStep(b0, b, cl, y);
      CollapseFromEnds(b0, next.0, next.1, y + 1);
      EndsStep(b0, b, cl, y);
    }
  }

  /** When it ends, rows up to the stop row have moved down by one. */
  lemma {:induction false} CollapseFromShifts(b0: Board, b: Board, cl: bv16, y: nat)
    requires y <= Height
    requires RowsShifted(b0, b, y) && Carries(b0, cl, y)
    ensures CollapseFrom(b, cl, y).Ok? ==> RowsShifted(b0, CollapseFrom(b, cl, y).value, FirstStop(b0, y) + 1)
    decreases Height - y
  {
    if y < Height {
      var next := CollapseRow(b, cl, y, 0);
      StopTest(b0, b, cl, y);
      CollapseStep(b0, b, cl, y);
      if next.1 == 0x3ff {
        assert FirstStop(b0, y) + 1 == y + 1;
      } else {
        CollapseFromShifts(b0, next.0, next.1, y + 1);
      }
    }
  }

  /** A stop row found from y is at or below y and does stop the pass. */
  lemma {:induction false} FirstStopStops(b: Board, y: nat)
    requires y <= Height
    ensures y <= FirstStop(b, y) <= Height
    ensures FirstStop(b, y) < Height ==> StopsAt(b, FirstStop(b, y))
    decreases Height - y
  {
    if y < Height && !StopsAt(b, y) {
      FirstStopStops(b, y + 1);
    }
  }

  /** Row y of a shifted board is full exactly when the row it received was. */
  lemma ShiftedRowFull(b0: Board, b: Board, n: nat, y: nat)
    requires y < Height && RowsShifted(b0, b, n)
    ensures RowFull(b, y) == if y < n then y > 0 && RowFull(b0, y - 1) else RowFull(b0, y)
  {
    if y < n && y == 0 {
      assert !Get(b, 0, y);
    } else if y < n {
      if RowFull(b0, y - 1) {
        forall x: u8 | x < Width ensures Get(b, x, y) {
          assert Get(b0, x, y - 1);
        }
      } else {
        var x: u8 :| x < Width && !Get(b0, x, y - 1);
        assert !Get(b, x, y);
      }
    } else {
      if RowFull(b0, y) {
        forall x: u8 | x < Width ensures Get(b, x, y) {
          assert Get(b0, x, y);
        }
      } else {
        var x: u8 :| x < Width && !Get(b0, x, y);
        assert !Get(b, x, y);
      }
    }
  }

  /** Rows from n on are untouched by the shift, so they hold as many full rows as before. */
  lemma SameRowsBelow(b0: Board, b: Board, n: nat, y: nat)
    requires n <= y <= Height && RowsShifted(b0, b, n)
    ensures FullRows(b, y) == FullRows(b0, y)
  {
    forall r | y <= r < Height
      ensures RowFull(b, r) == RowFull(b0, r)
    {
      ShiftedRowFull(b0, b, n, r);
    }
    assert FullRowSet(b, y) == FullRowSet(b0, y);
  }

  /**
   * Rows y .. 19 of a board shifted down to the full row l hold one full
   * row fewer than rows y - 1 .. 19 held before: rows y .. l received rows
   * y - 1 .. l - 1, and the full row l itself is gone.
   */
  lemma {:induction false} ShiftedFullRows(b0: Board, b: Board, l: nat, y: nat)
    requires l < Height && RowFull(b0, l) && RowsShifted(b0, b, l + 1)
    requires 1 <= y <= l + 1
    ensures FullRows(b, y) + 1 == FullRows(b0, y - 1)
    decreases l + 1 - y
  {
    FullRowsStep(b0, y - 1);
    if y == l + 1 {
      SameRowsBelow(b0, b, l + 1, l + 1);
    } else {
      ShiftedFullRows(b0, b, l, y + 1);
      FullRowsStep(b, y);
      ShiftedRowFull(b0, b, l + 1, y);
    }
  }

  /** A pass that ends on the board removes exactly one full row: the one it stopped at. */
  lemma PassRemovesRow(b: Board, b': Board, l: nat)
    requires l < Height && StopsAt(b, l) && RowsShifted(b, b', l + 1)
    ensures FullRows(b', 0) + 1 == FullRows(b, 0)
  {
    ShiftedFullRows(b, b', l, 1);
    FullRowsStep(b', 0);
    ShiftedRowFull(b, b', l + 1, 0);
  }

  /** Row y as its ten cells, column 0 first. */
  function Row(b: Board, y: nat): (r: seq<bool>)
    requires y < Height
    ensures |r| == Width
    ensures forall x: u8 | x < Width :: r[x] == Get(b, x, y)
  {
    b[10 * y .. 10 * y + 10]
  }

  /** Every row of the sequence is ten cells wide. */
  predicate RowsOfWidth(rows: seq<seq<bool>>)
  {
    forall i | 0 <= i < |rows| :: |rows[i]| == Width
  }

  /** The rows laid end to end, the first row first. */
  function Concat(rows: seq<seq<bool>>): seq<bool>
  {
    if rows == [] then [] else rows[0] + Concat(rows[1..])
  }

  lemma {:induction false} ConcatLength(rows: seq<seq<bool>>)
    requires RowsOfWidth(rows)
    ensures |Concat(rows)| == 10 * |rows|
  {
    if rows != [] {
      ConcatLength(rows[1..]);
    }
  }

  lemma {:induction false} ConcatAppend(a: seq<seq<bool>>, c: seq<seq<bool>>)
    ensures Concat(a + c) == Concat(a) + Concat(c)
  {
    if a == [] {
      assert a + c == c;
    } else {
      assert (a + c)[1..] == a[1..] + c;
      ConcatAppend(a[1..], c);
    }
  }

  /** n empty rows. */
  function EmptyRows(n: nat): seq<seq<bool>>
  {
    seq(n, _ => Empty(Width))
  }

  lemma {:induction false} ConcatEmptyRows(n: nat)
    ensures Concat(EmptyRows(n)) == Empty(10 * n)
  {
    if n > 0 {
      assert EmptyRows(n)[1..] == EmptyRows(n - 1);
      ConcatEmptyRows(n - 1);
      assert Empty(Width) + Empty(10 * (n - 1)) == Empty(10 * n);
    }
  }

  /** The rows among y .. 19 that are not full, from top to bottom. */
  function KeptFrom(b: Board, y: nat): seq<seq<bool>>
    requires y <= Height
    // the board never decreases here: naming it keeps the verifier from unrolling
    // a call whose counter is a constant
    decreases Height - y, b
  {
    if y == Height then []
    else if RowFull(b, y) then KeptFrom(b, y + 1)
    else [Row(b, y)] + KeptFrom(b, y + 1)
  }

  /** Rows y .. 19 are either kept or full. */
  lemma {:induction false} KeptCount(b: Board, y: nat)
    requires y <= Height
    ensures |KeptFrom(b, y)| + FullRows(b, y) == Height - y
    ensures RowsOfWidth(KeptFrom(b, y))
    decreases Height - y
  {
    FullRowsStep(b, y);
    if y < Height {
      KeptCount(b, y + 1);
    }
  }

  /**
   * The board a line clear is meant to leave: the rows that are not full,
   * in their order, at the bottom, under one empty row for each full row.
   */
  function Compacted(b: Board): Board
  {
    KeptCount(b, 0);
    var rows := EmptyRows(FullRows(b, 0)) + KeptFrom(b, 0);
    assert RowsOfWidth(rows);
    ConcatLength(rows);
    Concat(rows)
  }

  /** With every row kept, laying them end to end gives back the board from row y on. */
  lemma {:induction false} KeptAll(b: Board, y: nat)
    requires y <= Height && FullRows(b, y) == 0
    ensures Concat(KeptFrom(b, y)) == b[10 * y ..]
    decreases Height - y
  {
    FullRowsStep(b, y);
    if y < Height {
      KeptAll(b, y + 1);
      var k := KeptFrom(b, y + 1);
      assert ([Row(b, y)] + k)[1..] == k;
      assert b[10 * y ..] == Row(b, y) + b[10 * (y + 1) ..];
    }
  }

  /** A board without a full row is its own compaction. */
  lemma CompactedWhenNoneFull(b: Board)
    requires FullRows(b, 0) == 0
    ensures Compacted(b) == b
  {
    KeptAll(b, 0);
    assert EmptyRows(0) + KeptFrom(b, 0) == KeptFrom(b, 0);
  }

  /** The kept rows of the whole board end with those of rows y .. 19. */
  lemma {:induction false} KeptPrefix(b: Board, y: nat) returns (p: seq<seq<bool>>)
    requires y <= Height
    ensures KeptFrom(b, 0) == p + KeptFrom(b, y)
    ensures RowsOfWidth(p)
    decreases y
  {
    if y == 0 {
      p := [];
    } else {
      var q := KeptPrefix(b, y - 1);
      if RowFull(b, y - 1) {
        p := q;
      } else {
        p := q + [Row(b, y - 1)];
        assert q + ([Row(b, y - 1)] + KeptFrom(b, y)) == p + KeptFrom(b, y);
      }
    }
  }

  /** A row that is not full moves down by the number of full rows below it. */
  lemma CompactedMoves(b: Board, x: u8, y: u8)
    requires OnBoard(x, y) && !RowFull(b, y)
    ensures y + FullRows(b, y + 1) < Height
    ensures Get(Compacted(b), x, y + FullRows(b, y + 1)) == Get(b, x, y)
  {
    var p := KeptPrefix(b, y);
    var k := KeptFrom(b, y + 1);
    KeptCount(b, 0);
    KeptCount(b, y + 1);
    var a := EmptyRows(FullRows(b, 0)) + p;
    assert KeptFrom(b, y) == [Row(b, y)] + k;
    assert EmptyRows(FullRows(b, 0)) + KeptFrom(b, 0) == a + ([Row(b, y)] + k);
    assert RowsOfWidth(a);
    ConcatLength(a);
    ConcatAppend(a, [Row(b, y)] + k);
    assert ([Row(b, y)] + k)[1..] == k;
  }

  /** The rows above them are empty, one for each full row. */
  lemma CompactedTop(b: Board, x: u8, y: u8)
    requires OnBoard(x, y) && y < FullRows(b, 0)
    ensures !Get(Compacted(b), x, y)
  {
    KeptCount(b, 0);
    ConcatAppend(EmptyRows(FullRows(b, 0)), KeptFrom(b, 0));
    ConcatEmptyRows(FullRows(b, 0));
  }

  /** Row y of a shifted board is the row it received. */
  lemma ShiftedRow(b0: Board, b: Board, n: nat, y: nat)
    requires y < Height && RowsShifted(b0, b, n)
    ensures Row(b, y) == if y >= n then Row(b0, y) else if y == 0 then Empty(Width) else Row(b0, y - 1)
  {
    var want := if y >= n then Row(b0, y) else if y == 0 then Empty(Width) else Row(b0, y - 1);
    forall x: u8 | x < Width
      ensures Row(b, y)[x] == want[x]
    {
      assert Get(b, x, y) == if y < n then (y > 0 && Get(b0, x, y - 1)) else Get(b0, x, y);
    }
  }

  /** Rows from n on are untouched by the shift, so they keep the same rows. */
  lemma {:induction false} SameKeptBelow(b0: Board, b: Board, n: nat, y: nat)
    requires n <= y <= Height && RowsShifted(b0, b, n)
    ensures KeptFrom(b, y) == KeptFrom(b0, y)
    decreases Height - y
  {
    if y < Height {
      SameKeptBelow(b0, b, n, y + 1);
      ShiftedRow(b0, b, n, y);
      ShiftedRowFull(b0, b, n, y);
    }
  }

  /**
   * Rows y .. 19 of a board shifted down to the full row l keep the rows
   * that rows y - 1 .. 19 kept before: the full row l was never kept.
   */
  lemma {:induction false} ShiftedKept(b0: Board, b: Board, l: nat, y: nat)
    requires l < Height && RowFull(b0, l) && RowsShifted(b0, b, l + 1)
    requires 1 <= y <= l + 1
    ensures KeptFrom(b, y) == KeptFrom(b0, y - 1)
    decreases l + 1 - y
  {
    if y == l + 1 {
      SameKeptBelow(b0, b, l + 1, l + 1);
    } else {
      ShiftedKept(b0, b, l, y + 1);
      ShiftedRow(b0, b, l + 1, y);
      ShiftedRowFull(b0, b, l + 1, y);
      assert KeptFrom(b, y) == (if RowFull(b, y) then [] else [Row(b, y)]) + KeptFrom(b, y + 1);
    }
  }

  /**
   * A pass that ends on the board brings the board one step nearer its
   * compaction without changing it: the full stop row turns into an empty
   * row on top.
   */
  lemma PassKeepsCompacted(b: Board, b': Board, l: nat)
    requires l < Height && StopsAt(b, l) && RowsShifted(b, b', l + 1)
    ensures Compacted(b') == Compacted(b)
  {
    PassRemovesRow(b, b', l);
    ShiftedKept(b, b', l, 1);
    ShiftedRow(b, b', l + 1, 0);
    ShiftedRowFull(b, b', l + 1, 0);
    assert KeptFrom(b', 0) == [Empty(Width)] + KeptFrom(b, 0);
    var n := FullRows(b', 0);
    assert EmptyRows(n) + [Empty(Width)] == EmptyRows(n + 1);
    assert EmptyRows(n) + KeptFrom(b', 0) == EmptyRows(n + 1) + KeptFrom(b, 0);
  }

  /**
   * One collapse pass (`cl = 0; l = 0; while (cl != 0x3ff) ...`): it ends
   * inside the board exactly when some row stops it, and then row 0 is
   * empty, old rows 0 .. L - 1 sit in rows 1 .. L (L the stop row, which is
   * overwritten) and rows below L are untouched.
   */
  function CollapsePass(b: Board): (r: Result<Board>)
    ensures r.Ok? <==> FirstStop(b, 0) < Height
    ensures r.Ok? ==> RowsShifted(b, r.value, FirstStop(b, 0) + 1)
    ensures r.Ok? ==> FullRows(r.value, 0) + 1 == FullRows(b, 0)
    ensures r.Ok? ==> Compacted(r.value) == Compacted(b)
    ensures r.Err? ==> r.fault == CollapsePastBoard
  {
    CollapseFromEnds(b, b, 0, 0);
    CollapseFromShifts(b, b, 0, 0);
    var r := CollapseFrom(b, 0, 0);
    FirstStopStops(b, 0);
    if r.Ok? then
      PassRemovesRow(b, r.value, FirstStop(b, 0));
      PassKeepsCompacted(b, r.value, FirstStop(b, 0));
      r
    else r
  }

  /**
   * `while (ltc) { ...pass...; ltc--; }`: each pass that ends on the board
   * removes one full row, so n passes succeed only when at least n rows are
   * full, and then leave n fewer.
   */
  function Passes(b: Board, n: nat): (r: Result<Board>)
    ensures n == 0 ==> r == Ok(b)
    ensures r.Ok? ==> n <= FullRows(b, 0) && FullRows(r.value, 0) == FullRows(b, 0) - n
    ensures r.Ok? ==> Compacted(r.value) == Compacted(b)
    ensures r.Err? ==> r.fault == CollapsePastBoard
    // the board never decreases here: naming it keeps the verifier from unrolling
    // a call whose counter is a constant
    decreases n, b
  {
    if n == 0 then Ok(b)
    else
      match CollapsePass(b)
      case Err(f) => Err(f)
      case Ok(b') => Passes(b', n - 1)
  }

  /**
   * tetris_clear_lines on a board and the 16-bit counter: the counter grows
   * by the number of rows that are full on entry, and a clear that does
   * not walk off the board leaves no full row; with no full row nothing
   * changes.
   */
  function ClearLines(b: Board, lines: u16): (r: Result<(Board, u16)>)
    ensures r.Ok? ==> r.value.1 == (lines + FullRows(b, 0)) % 0x1_0000
    ensures r.Ok? ==> FullRows(r.value.0, 0) == 0
    ensures r.Ok? ==> r.value.0 == Compacted(b)
    ensures FullRows(b, 0) == 0 ==> r == Ok((b, lines))
    ensures r.Err? ==> r.fault == CollapsePastBoard
  {
    var (ltc, lines') := ScanFrom(b, 0, 0, 0, lines);
    assert ltc == 0 ==> lines' == lines && Passes(b, ltc) == Ok(b);
    match Passes(b, ltc)
    case Err(f) => Err(f)
    case Ok(b') =>
      CompactedWhenNoneFull(b');
      Ok((b', lines'))
  }

  /** Clearing a cleared board changes neither the board nor the counter. */
  lemma ClearTwice(b: Board, lines: u16)
    requires ClearLines(b, lines).Ok?
    ensures ClearLines(ClearLines(b, lines).value.0, ClearLines(b, lines).value.1) == ClearLines(b, lines)
  {
  }

  /** No row from y on stops a pass. */
  lemma {:induction false} NoStopFrom(b: Board, y: nat)
    requires y <= Height
    requires forall r | y <= r < Height :: !StopsAt(b, r)
    ensures FirstStop(b, y) == Height
    decreases Height - y
  {
    if y < Height {
      NoStopFrom(b, y + 1);
    }
  }

  /**
   * The stop rule as written: when row 0 is not full and every full row
   * has a cell in columns 4 .. 9 of the row above it, the first pass runs
   * past row 19, so clearing fails although some row is full.
   */
  lemma ClearPastBoard(b: Board, lines: u16)
    requires FullRows(b, 0) > 0 && !RowFull(b, 0)
    requires forall y | 0 < y < Height && RowFull(b, y) :: !RightSideEmpty(b, y - 1)
    ensures ClearLines(b, lines) == Err(CollapsePastBoard)
  {
    NoStopFrom(b, 0);
  }

  /** Row 19 full under a block at (4, 18): the bottom line cannot be cleared. */
  lemma ClearPastBoardExample()
    ensures ClearLines(seq(200, t => t >= 190 || t == 184), 0) == Err(CollapsePastBoard)
  {
    var b: Board := seq(200, t => t >= 190 || t == 184);
    forall y | 0 <= y < Height - 1
      ensures !RowFull(b, y)
    {
      assert !Get(b, 0, y);
    }
    assert RowFull(b, Height - 1);
    assert Height - 1 in FullRowSet(b, 0);
    assert Get(b, 4, Height - 2);
    ClearPastBoard(b, 0);
  }
}

=== FILE: piece_table.dfy ===
/**
 * The piece table of tetris.c:126: 32 bitmaps of a 4 x 4 box. Bit 15 is box
 * cell (0, 0) and the cells run row-major, so box cell k = 4 * row + column
 * is bit 15 - k. Slot `8 * r + s` holds rotation r of shape s; slot 7 of
 * each group of eight is zero padding. The table lives in flash (PROGMEM)
 * but is read as a plain array; here it is a function of the slot number.
 */
module PieceTable {
  import opened FixedWidth

  /** `pieces[i]`, slot i of the 32-entry table. */
  function Piece(i: nat): (p: bv16)
    requires i < 32
    ensures p == 0 <==> i % 8 == 7
  {
    match i
    // rotation 0
    case 0 => 0x0660 case 1 => 0x8888 case 2 => 0x0710 case 3 => 0x0170
    case 4 => 0x06c0 case 5 => 0x0c60 case 6 => 0x4640 case 7 => 0
    // rotation 1
    case 8 => 0x0660 case 9 => 0xf000 case 10 => 0x0226 case 11 => 0x0446
    case 12 => 0x4620 case 13 => 0x2640 case 14 => 0x0720 case 15 => 0
    // rotation 2
    case 16 => 0x0660 case 17 => 0x1111 case 18 => 0x08e0 case 19 => 0x0e80
    case 20 => 0x0360 case 21 => 0x0630 case 22 => 0x0262 case 23 => 0
    // rotation 3
    case 24 => 0x0660 case 25 => 0x000f case 26 => 0x6220 case 27 => 0x6440
    case 28 => 0x0462 case 29 => 0x0264 case 30 => 0x04e0 case _ => 0
  }

  /** Number of distinct shapes; tetris_get_next draws one of slots 0 .. 6. */
  const Shapes := 7

  /** Box cell k (column k % 4, row k / 4) of bitmap p is set, as tetris_check reads it. */
  predicate BoxCell(p: bv16, k: nat)
    requires k < 16
  {
    TopBit(p, k)
  }

  /**
   * Box cell k of bitmap p is toggled by tetris_xor. The xor loop tests
   * `t & 0x80` where tetris_check tests `t & 0x8000` (tetris.c:159 against
   * tetris.c:217), so it sees bit 7 - k of the piece for the cells k < 8 of
   * the top two box rows, and nothing for the bottom two: the low byte of
   * the bitmap (box rows 2 and 3 for the check) lands in box rows 0 and 1,
   * and the high byte is never merged.
   */
  predicate MergedCell(p: bv16, k: nat)
    requires k < 16
  {
    k < 8 && TopBit(p, k + 8)
  }

  /** Layout of the table: 4 rotations of 7 shapes, each group padded by a zero slot. */
  lemma TableLayout()
    ensures forall r | 0 <= r < 4 :: Piece(8 * r + 7) == 0
    ensures forall i | 0 <= i < 32 :: Piece(i) == 0 <==> i % 8 == 7
    ensures forall s | 0 <= s < Shapes :: Piece(s) != 0
  {
  }
}

=== FILE: placement.dfy ===
/**
 * tetris_check (tetris.c:214-231) and tetris_xor (tetris.c:155-165): the two
 * loops that walk the 16 cells of a piece bitmap against the board at the
 * signed origin (posx, posy). Both shift a copy of the bitmap left once per
 * cell; here each loop is a recursive function over the cell number k, with
 * `t` the shifted copy.
 */
module Placement {
  import opened FixedWidth
  import opened Grid
  import opened PieceTable
  import opened Errors

  /** Cell (x, y) exists and is empty. */
  predicate Free(b: Board, x: int, y: int)
  {
    OnBoard(x, y) && !Get(b, x, y)
  }

  /** Box cell k of p, if set, lands on an empty board cell (posx + k % 4, posy + k / 4). */
  predicate CellFits(b: Board, p: bv16, posx: int, posy: int, k: nat)
    requires k < 16
  {
    BoxCell(p, k) ==> Free(b, posx + k % 4, posy + k / 4)
  }

  /** The placement rule: every set box cell of p lands on an empty board cell. */
  predicate Fits(b: Board, p: bv16, posx: int, posy: int)
  {
    forall k | 0 <= k < 16 :: CellFits(b, p, posx, posy, k)
  }

  /** The placement rule for box cells k .. 15. */
  predicate FitsFrom(b: Board, p: bv16, posx: int, posy: int, k: nat)
  {
    forall j | k <= j < 16 :: CellFits(b, p, posx, posy, j)
  }

  /** Iterations k .. 15 of the loop of tetris_check, `t` being the bitmap shifted k times. */
  function CheckFrom(b: Board, t: bv16, posx: i8, posy: i8, k: nat): bool
    requires k <= 16
    // the board never decreases here: naming it keeps the verifier from unrolling
    // a call whose counter is a constant
    decreases 16 - k, b
  {
    if k == 16 then true
    else if t & 0x8000 != 0 then
      var nx := ToI8(posx + k % 4);
      var ny := ToI8(posy + k / 4);
      if nx < 0 || ny < 0 || nx > 9 || ny > 19 then false
      else if Get(b, nx, ny) then false
      else CheckFrom(b, t << 1, posx, posy, k + 1)
    else CheckFrom(b, t << 1, posx, posy, k + 1)
  }

  /** The int8_t sums `posx + x` only leave 0 .. 9 when the exact sum does. */
  lemma I8Coordinate(v: int)
    requires -0x80 <= v <= 0x80 + 3
    ensures (0 <= ToI8(v) <= 9) <==> (0 <= v <= 9)
    ensures 0 <= v <= 9 ==> ToI8(v) == v
    ensures (0 <= ToI8(v) <= 19) <==> (0 <= v <= 19)
    ensures 0 <= v <= 19 ==> ToI8(v) == v
  {
  }

  /** One iteration of tetris_check: the cell test, then the rest of the loop. */
  lemma CheckStep(b: Board, t: bv16, posx: i8, posy: i8, k: nat)
    requires k < 16
    ensures CheckFrom(b, t, posx, posy, k)
        == ((t & 0x8000 != 0 ==> Free(b, posx + k % 4, posy + k / 4)) && CheckFrom(b, t << 1, posx, posy, k + 1))
  {
    I8Coordinate(posx + k % 4);
    I8Coordinate(posy + k / 4);
  }

  lemma FitsFromStep(b: Board, p: bv16, posx: int, posy: int, k: nat)
    requires k < 16
    ensures FitsFrom(b, p, posx, posy, k) == (CellFits(b, p, posx, posy, k) && FitsFrom(b, p, posx, posy, k + 1))
  {
    if CellFits(b, p, posx, posy, k) && FitsFrom(b, p, posx, posy, k + 1) {
      forall j | k <= j < 16
        ensures CellFits(b, p, posx, posy, j)
      {
        if j != k {
          assert k + 1 <= j;
        }
      }
    }
  }

  /** At iteration k, `t & 0x8000` of tetris_check is box cell k of the piece. */
  lemma CheckedBit(p: bv16, k: nat)
    requires k < 16
    ensures (ShiftedLeft(p, k) & 0x8000 != 0) == BoxCell(p, k)
    ensures ShiftedLeft(p, k + 1) == ShiftedLeft(p, k) << 1
  {
    ShiftedTop(p, k);
  }

  lemma {:induction false} CheckFromFits(b: Board, p: bv16, posx: i8, posy: i8, k: nat)
    requires k <= 16
    ensures CheckFrom(b, ShiftedLeft(p, k), posx, posy, k) <==> FitsFrom(b, p, posx, posy, k)
    decreases 16 - k
  {
    if k < 16 {
      CheckedBit(p, k);
      CheckFromFits(b, p, posx, posy, k + 1);
      CheckStep(b, ShiftedLeft(p, k), posx, posy, k);
      FitsFromStep(b, p, posx, posy, k);
    }
  }

  /**
   * tetris_check(p): true exactly when p fits at (posx, posy). It reads the
   * board and the origin and changes nothing.
   */
  function Check(b: Board, p: bv16, posx: i8, posy: i8): (r: bool)
    ensures r <==> Fits(b, p, posx, posy)
  {
    CheckFromFits(b, p, posx, posy, 0);
    CheckFrom(b, ShiftedLeft(p, 0), posx, posy, 0)
  }

  /** tetris_check(0) accepts every origin. */
  lemma CheckEmptyPiece(b: Board, posx: i8, posy: i8)
    ensures Check(b, 0, posx, posy)
  {
  }

  /**
   * Iterations k .. 15 of the loop of tetris_xor. `posx + x` and `posy + y`
   * reach set_board as uint8_t, without a bounds check; an index of 200 or
   * more is outside `board`.
   */
  function XorFrom(b: Board, t: bv16, posx: i8, posy: i8, k: nat): (r: Result<Board>)
    requires k <= 16
    ensures r.Err? ==> r.fault == ToggleOutsideBoard
    // the board never decreases here: naming it keeps the verifier from unrolling
    // a call whose counter is a constant
    decreases 16 - k, b
  {
    if k == 16 then Ok(b)
    else if t & 0x80 != 0 then
      var i := CellIndex(ToU8(posx + k % 4), ToU8(posy + k / 4));
      if i >= 200 then Err(ToggleOutsideBoard)
      else XorFrom(b[i := !b[i]], t << 1, posx, posy, k + 1)
    else XorFrom(b, t << 1, posx, posy, k + 1)
  }

  /** tetris_xor(): toggle the merged cells of piece p at (posx, posy). */
  function Xor(b: Board, p: bv16, posx: i8, posy: i8): (r: Result<Board>)
    ensures r.Err? ==> r.fault == ToggleOutsideBoard
  {
    XorFrom(b, p, posx, posy, 0)
  }

  /** Every cell tetris_xor toggles is on the board. */
  predicate MergeOnBoard(p: bv16, posx: int, posy: int)
  {
    forall k | 0 <= k < 16 && MergedCell(p, k) :: OnBoard(posx + k % 4, posy + k / 4)
  }

  /** Board cell (x, y) is the merged cell j of p for some j in k .. 15. */
  predicate MergeCovers(p: bv16, posx: int, posy: int, k: nat, x: int, y: int)
  {
    var dx, dy := x - posx, y - posy;
    0 <= dx < 4 && 0 <= dy < 4 && k <= 4 * dy + dx && MergedCell(p, 4 * dy + dx)
  }

  /** At iteration k, `t & 0x80` of tetris_xor is merged cell k of the piece. */
  lemma MergedBit(p: bv16, k: nat)
    requires k < 16
    ensures (ShiftedLeft(p, k) & 0x80 != 0) == MergedCell(p, k)
    ensures ShiftedLeft(p, k + 1) == ShiftedLeft(p, k) << 1
  {
    ShiftedLow(p, k);
  }

  /** Cell k's toggle, if any, hits a board cell no later iteration toggles. */
  lemma CoversStep(p: bv16, posx: int, posy: int, k: nat, x: int, y: int)
    requires k < 16
    ensures MergeCovers(p, posx, posy, k, x, y)
        == (MergeCovers(p, posx, posy, k + 1, x, y) || (MergedCell(p, k) && x == posx + k % 4 && y == posy + k / 4))
    ensures x == posx + k % 4 && y == posy + k / 4 ==> !MergeCovers(p, posx, posy, k + 1, x, y)
  {
  }

  /** One iteration of tetris_xor: toggle bit CellIndex of cell k if merged, then the rest of the loop. */
  lemma XorStep(b: Board, t: bv16, posx: i8, posy: i8, k: nat)
    requires k < 16
    ensures var i := CellIndex(ToU8(posx + k % 4), ToU8(posy + k / 4));
      XorFrom(b, t, posx, posy, k)
        == if t & 0x80 == 0 then XorFrom(b, t << 1, posx, posy, k + 1)
           else if i >= 200 then Err(ToggleOutsideBoard)
           else XorFrom(b[i := !b[i]], t << 1, posx, posy, k + 1)
  {
  }

  /** The board after iteration k of tetris_xor: cell k of the box flipped if it is merged. */
  function MergeStep(b: Board, p: bv16, posx: int, posy: int, k: nat): Board
    requires k < 16
    requires MergedCell(p, k) ==> OnBoard(posx + k % 4, posy + k / 4)
  {
    var cx, cy := posx + k % 4, posy + k / 4;
    if MergedCell(p, k) then Set(b, cx, cy, !Get(b, cx, cy)) else b
  }

  /** On a board cell, the toggle of tetris_xor at the uint8_t index is set_board(cx, cy, !get_board(cx, cy)). */
  lemma ToggleOnBoard(b: Board, posx: i8, posy: i8, k: nat)
    requires k < 16
    requires OnBoard(posx + k % 4, posy + k / 4)
    ensures var cx, cy := posx + k % 4, posy + k / 4;
      var i := CellIndex(ToU8(cx), ToU8(cy));
      i < 200 && b[i := !b[i]] == Set(b, cx, cy, !Get(b, cx, cy))
  {
    var cx, cy := posx + k % 4, posy + k / 4;
    assert ToU8(cx) == cx && ToU8(cy) == cy;
  }

  /** Iteration k of tetris_xor, when every toggled cell is on the board: set_board on cell k of the box, if merged. */
  lemma XorToggle(b: Board, p: bv16, posx: i8, posy: i8, k: nat)
    requires k < 16
    requires MergeOnBoard(p, posx, posy)
    ensures MergedCell(p, k) ==> OnBoard(posx + k % 4, posy + k / 4)
    ensures XorFrom(b, ShiftedLeft(p, k), posx, posy, k)
        == XorFrom(MergeStep(b, p, posx, posy, k), ShiftedLeft(p, k + 1), posx, posy, k + 1)
  {
    MergedBit(p, k);
    XorStep(b, ShiftedLeft(p, k), posx, posy, k);
    if MergedCell(p, k) {
      ToggleOnBoard(b, posx, posy, k);
    }
  }

  /** set_board(cx, cy, !get_board(cx, cy)) when `flip`, nothing otherwise, seen from cell (x, y). */
  lemma FlipCell(b: Board, b': Board, flip: bool, cx: int, cy: int, x: u8, y: u8)
    requires flip ==> OnBoard(cx, cy)
    requires OnBoard(x, y)
    requires b' == if flip then Set(b, cx, cy, !Get(b, cx, cy)) else b
    ensures Get(b', x, y) == (Get(b, x, y) != (flip && x == cx && y == cy))
  {
  }

  /** b' is b with exactly the merged cells k .. 15 of p at (posx, posy) flipped. */
  predicate FlippedFrom(b: Board, b': Board, p: bv16, posx: int, posy: int, k: nat)
  {
    forall x: u8, y: u8 | OnBoard(x, y) :: Get(b', x, y) == (Get(b, x, y) != MergeCovers(p, posx, posy, k, x, y))
  }

  lemma FlippedStep(b: Board, after: Board, p: bv16, posx: int, posy: int, k: nat)
    requires k < 16
    requires MergedCell(p, k) ==> OnBoard(posx + k % 4, posy + k / 4)
    requires FlippedFrom(MergeStep(b, p, posx, posy, k), after, p, posx, posy, k + 1)
    ensures FlippedFrom(b, after, p, posx, posy, k)
  {
    forall x: u8, y: u8 | OnBoard(x, y)
      ensures Get(after, x, y) == (Get(b, x, y) != MergeCovers(p, posx, posy, k, x, y))
    {
      CoversStep(p, posx, posy, k, x, y);
      FlipCell(b, MergeStep(b, p, posx, posy, k), MergedCell(p, k), posx + k % 4, posy + k / 4, x, y);
    }
  }

  lemma {:induction false} XorFromCells(b: Board, p: bv16, posx: i8, posy: i8, k: nat)
    requires k <= 16
    requires MergeOnBoard(p, posx, posy)
    ensures XorFrom(b, ShiftedLeft(p, k), posx, posy, k).Ok?
    ensures FlippedFrom(b, XorFrom(b, ShiftedLeft(p, k), posx, posy, k).value, p, posx, posy, k)
    decreases 16 - k
  {
    if k < 16 {
      XorToggle(b, p, posx, posy, k);
      var b' := MergeStep(b, p, posx, posy, k);
      XorFromCells(b', p, posx, posy, k + 1);
      FlippedStep(b, XorFrom(b', ShiftedLeft(p, k + 1), posx, posy, k + 1).value, p, posx, posy, k);
    } else {
      forall x: u8, y: u8 | OnBoard(x, y)
        ensures Get(b, x, y) == (Get(b, x, y) != MergeCovers(p, posx, posy, k, x, y))
      {
      }
    }
  }

  /**
   * When every toggled cell is on the board, tetris_xor flips exactly the
   * merged cells of the piece and no other cell.
   */
  lemma XorCells(b: Board, p: bv16, posx: i8, posy: i8)
    requires MergeOnBoard(p, posx, posy)
    ensures Xor(b, p, posx, posy).Ok?
    ensures forall x: u8, y: u8 | OnBoard(x, y) ::
      Get(Xor(b, p, posx, posy).value, x, y) == (Get(b, x, y) != MergeCovers(p, posx, posy, 0, x, y))
  {
    XorFromCells(b, p, posx, posy, 0);
  }

  /**
   * A piece that fits at a row of the board merges on the board one row
   * lower: the cells tetris_xor toggles there are the cells tetris_check
   * saw in box rows 2 and 3, moved up two box rows and down one board row.
   */
  lemma MergeBelowFit(b: Board, p: bv16, posx: int, posy: int)
    requires Fits(b, p, posx, posy) && 0 <= posy
    ensures MergeOnBoard(p, posx, posy + 1)
  {
    forall k | 0 <= k < 16 && MergedCell(p, k)
      ensures OnBoard(posx + k % 4, posy + 1 + k / 4)
    {
      assert CellFits(b, p, posx, posy, k + 8);
    }
  }

  /**
   * tetris_xor applied twice restores the board whenever every toggled cell
   * is on the board; tetris_draw_board relies on it (tetris.c:311, 321).
   */
  lemma XorTwice(b: Board, p: bv16, posx: i8, posy: i8)
    requires MergeOnBoard(p, posx, posy)
    ensures Xor(b, p, posx, posy).Ok?
    ensures Xor(Xor(b, p, posx, posy).value, p, posx, posy) == Ok(b)
  {
    XorCells(b, p, posx, posy);
    var b1 := Xor(b, p, posx, posy).value;
    XorCells(b1, p, posx, posy);
    SameCellsSameBoard(Xor(b1, p, posx, posy).value, b);
  }

  /**
   * tetris_xor only looks at the low byte of its register: the bit it tests
   * each iteration, `t & 0x80`, is one of bits 7 .. 0 of the bitmap it was
   * given, shifted up, or a zero shifted in.
   */
  lemma {:induction false} XorFromLowBits(b: Board, t: bv16, t': bv16, posx: i8, posy: i8, k: nat)
    requires k <= 16
    requires t & 0x00ff == t' & 0x00ff
    ensures XorFrom(b, t, posx, posy, k) == XorFrom(b, t', posx, posy, k)
    decreases 16 - k
  {
    if k < 16 {
      LowBitsShift(t, t');
      XorStep(b, t, posx, posy, k);
      XorStep(b, t', posx, posy, k);
      var i := CellIndex(ToU8(posx + k % 4), ToU8(posy + k / 4));
      var b' := if t & 0x80 != 0 && i < 200 then b[i := !b[i]] else b;
      XorFromLowBits(b', t << 1, t' << 1, posx, posy, k + 1);
    }
  }

  lemma LowBitsShift(t: bv16, t': bv16)
    requires t & 0x00ff == t' & 0x00ff
    ensures (t & 0x80 != 0) == (t' & 0x80 != 0)
    ensures (t << 1) & 0x00ff == (t' << 1) & 0x00ff
  {
  }

  /**
   * As written, the merge ignores the high byte: the horizontal I bitmap
   * 0xf000 (slot 9) toggles nothing, at any origin.
   */
  lemma XorIgnoresHighByte(b: Board, p: bv16, posx: i8, posy: i8)
    ensures Xor(b, p, posx, posy) == Xor(b, p & 0x00ff, posx, posy)
    ensures p & 0x00ff == 0 ==> Xor(b, p, posx, posy) == Ok(b)
  {
    XorFromLowBits(b, p, p & 0x00ff, posx, posy, 0);
    if p & 0x00ff == 0 {
      XorCells(b, 0, posx, posy);
      SameCellsSameBoard(Xor(b, 0, posx, posy).value, b);
    }
  }
}

=== FILE: prng.dfy ===
/**
 * The piece generator of tetris.c:128-140: a 16-bit linear congruential
 * generator, an output byte taken from a second product, and `% 7`.
 */
module Prng {
  import opened FixedWidth
  import opened PieceTable

  /**
   * `seed = 58566 * seed + 27443` stored back into a uint16_t. The
   * multiplier is even and the increment odd, so every new seed is odd.
   */
  function NextSeed(seed: u16): (r: u16)
    ensures r % 2 == 1
  {
    var x := 58566 * seed + 27443;
    OddRemainder(x, 29283 * seed + 13721);
    x % 0x1_0000
  }

  /** An odd number stays odd modulo 2^16. */
  lemma OddRemainder(x: int, h: int)
    requires x == 2 * h + 1
    ensures x % 0x1_0000 % 2 == 1
  {
    var q := x / 0x1_0000;
    assert x % 0x1_0000 == 2 * (h - 0x8000 * q) + 1;
  }

  /**
   * rand(): advances the seed and returns `(seed * 53458) >> 8` truncated to
   * uint8_t. The product is computed in a 32-bit long (53458 does not fit a
   * 16-bit int) and may overflow it; only bits 8 .. 15 of the product are
   * kept, so the draw depends on the product modulo 2^16 alone, whatever the
   * width of the multiplication.
   */
  function Rand(seed: u16): (r: (u8, u16))
    ensures r.1 == NextSeed(seed)
    ensures r.0 == (r.1 * 53458) % 0x1_0000 / 0x100
  {
    var s := NextSeed(seed);
    var product := s * 53458;
    LowBitsOfProduct(product);
    ((product / 0x100) % 0x100, s)
  }

  lemma LowBitsOfProduct(p: nat)
    ensures (p / 0x100) % 0x100 == (p % 0x1_0000) / 0x100
  {
    var q, m := p / 0x1_0000, p % 0x1_0000;
    assert p == 0x1_0000 * q + m;
    assert p / 0x100 == 0x100 * q + m / 0x100;
  }

  /** The `% 7` by which rand7 turns the byte rand() returns into a shape number. */
  function ShapeOf(v: u8): (r: int)
    ensures 0 <= r < Shapes
  {
    v % 7
  }

  /** rand7(): `rand() % 7`, which favours 0 .. 3 (37 of 256 draws each) over 4 .. 6 (36 each). */
  function Rand7(seed: u16): (r: (int, u16))
    ensures 0 <= r.0 < Shapes
    ensures r.0 == ShapeOf(Rand(seed).0)
    ensures r.1 == NextSeed(seed)
  {
    var (v, s) := Rand(seed);
    (ShapeOf(v), s)
  }

  /** The number of bytes 0 .. n - 1 that rand7 turns into shape `v`. */
  function Preimages(v: int, n: nat): nat
    requires n <= 0x100
  {
    if n == 0 then 0 else Preimages(v, n - 1) + (if ShapeOf(n - 1) == v then 1 else 0)
  }

  lemma {:induction false} PreimagesCount(v: int, n: nat)
    requires 0 <= v < Shapes && n <= 0x100
    ensures Preimages(v, n) == (n + 6 - v) / 7
  {
    if n > 0 {
      PreimagesCount(v, n - 1);
      var q, r := (n - 1) / 7, (n - 1) % 7;
      assert n - 1 == 7 * q + r;
      if r < v {
        assert n + 6 - v == 7 * q + (r + 7 - v);
      } else {
        assert n + 6 - v == 7 * (q + 1) + (r - v);
      }
    }
  }

  /** rand7 is not uniform: of the 256 bytes rand() can return, 37 give each of 0 .. 3 and 36 each of 4 .. 6. */
  lemma Rand7Bias(v: int)
    requires 0 <= v < Shapes
    ensures Preimages(v, 0x100) == if v < 4 then 37 else 36
  {
    PreimagesCount(v, 0x100);
  }

  /**
   * tetris_get_next(): `ni = rand7(); next = pieces[ni];`. It only ever loads
   * rotation 0 of one of the seven shapes, never a padding slot.
   */
  function GetNext(seed: u16): (r: (u8, bv16, u16))
    ensures r.0 < Shapes && r.1 == Piece(r.0)
    ensures r.1 != 0
    ensures r.2 == NextSeed(seed)
  {
    TableLayout();
    var (ni, s) := Rand7(seed);
    (ni, Piece(ni), s)
  }

  /** 2^k. */
  function Pow2(k: nat): (r: nat)
    ensures r > 0
  {
    if k == 0 then 1 else 2 * Pow2(k - 1)
  }

  lemma {:induction false} Pow2Add(a: nat, b: nat)
    ensures Pow2(a + b) == Pow2(a) * Pow2(b)
  {
    if a > 0 {
      Pow2Add(a - 1, b);
    }
  }

  lemma Pow2Sixteen()
    ensures Pow2(16) == 0x1_0000
  {
    assert Pow2(4) == 16;
    assert Pow2(8) == 0x100;
    assert Pow2(12) == 0x1000;
  }

  /** a and b agree in their k lowest bits. */
  predicate AgreeBelow(a: int, b: int, k: nat)
  {
    (a - b) % Pow2(k) == 0
  }

  lemma {:induction false} AtLeastOnce(e: int, m: nat)
    requires e >= 1
    ensures e * m >= m
    decreases e
  {
    if e > 1 {
      AtLeastOnce(e - 1, m);
      assert e * m == (e - 1) * m + m;
    }
  }

  /** A multiple of m leaves no remainder. */
  lemma MultipleAgrees(c: int, m: nat)
    requires m > 0
    ensures (c * m) % m == 0
  {
    var q, r := (c * m) / m, (c * m) % m;
    assert c * m == q * m + r;
    assert r == (c - q) * m;
    if c - q >= 1 {
      AtLeastOnce(c - q, m);
    } else if c - q <= -1 {
      AtLeastOnce(q - c, m);
    }
  }

  /** The difference of two steps of the generator, factored by 2^k. */
  lemma StepDifference(m: int, p: nat, w: nat, q: nat, e: int)
    requires w == 2 * p && 0x1_0000 == w * q
    ensures 58566 * (m * p) - 0x1_0000 * e == (29283 * m - q * e) * w
  {
    assert 58566 * (m * p) == 29283 * m * w;
    assert 0x1_0000 * e == (w * q) * e;
  }

  /**
   * The multiplier 58566 is even, so bit j of the new seed depends only on
   * bits 0 .. j - 1 of the old one: seeds that agree in their k - 1 lowest
   * bits step to seeds that agree in their k lowest bits.
   */
  lemma NextSeedAgrees(s: u16, s': u16, k: nat)
    requires 1 <= k <= 16 && AgreeBelow(s, s', k - 1)
    ensures AgreeBelow(NextSeed(s), NextSeed(s'), k)
  {
    var p := Pow2(k - 1);
    var m := (s - s') / p;
    ExactQuotient(s - s', p);
    Pow2Add(k, 16 - k);
    var w, q := Pow2(k), Pow2(16 - k);
    Pow2Sixteen();
    var e := SeedDifference(s, s');
    StepDifference(m, p, w, q, e);
    MultipleAgrees(29283 * m - q * e, w);
  }

  lemma ExactQuotient(a: int, p: nat)
    requires p > 0 && a % p == 0
    ensures a == (a / p) * p
  {
  }

  /** The two new seeds differ by 58566 times the old difference, less a multiple of 2^16. */
  lemma SeedDifference(s: u16, s': u16) returns (e: int)
    ensures NextSeed(s) - NextSeed(s') == 58566 * (s - s') - 0x1_0000 * e
  {
    var x, x' := 58566 * s + 27443, 58566 * s' + 27443;
    e := x / 0x1_0000 - x' / 0x1_0000;
  }

  /** The seed after n calls of rand(). */
  function SeedAfter(seed: u16, n: nat): u16
    // the seed never decreases here: naming it keeps the verifier from unrolling
    // a call whose counter is a constant
    decreases n, seed
  {
    if n == 0 then seed else NextSeed(SeedAfter(seed, n - 1))
  }

  /** After n calls, any two seeds agree in their n lowest bits. */
  lemma {:induction false} SeedsAgree(s: u16, s': u16, n: nat)
    requires n <= 16
    ensures AgreeBelow(SeedAfter(s, n), SeedAfter(s', n), n)
  {
    if n > 0 {
      SeedsAgree(s, s', n - 1);
      NextSeedAgrees(SeedAfter(s, n - 1), SeedAfter(s', n - 1), n);
    }
  }

  /** The one seed that rand() maps to itself. */
  const StuckSeed: u16 := 49257

  lemma {:induction false} StuckStays(n: nat)
    ensures SeedAfter(StuckSeed, n) == StuckSeed
  {
    if n > 0 {
      StuckStays(n - 1);
      StuckFixed();
    }
  }

  /**
   * The generator forgets its seed: after 16 calls of rand() every seed has
   * reached StuckSeed, and it stays there.
   */
  lemma {:induction false} SeedSettles(seed: u16, n: nat)
    requires n >= 16
    ensures SeedAfter(seed, n) == StuckSeed
  {
    if n == 16 {
      SettledAtSixteen(seed);
    } else {
      SeedSettles(seed, n - 1);
      StuckFixed();
    }
  }

  lemma StuckFixed()
    ensures NextSeed(StuckSeed) == StuckSeed
  {
  }

  lemma SettledAtSixteen(seed: u16)
    ensures SeedAfter(seed, 16) == StuckSeed
  {
    SeedsAgree(seed, StuckSeed, 16);
    StuckStays(16);
    Pow2Sixteen();
    SameLowBits(SeedAfter(seed, 16), StuckSeed);
  }

  lemma SameLowBits(a: u16, b: u16)
    requires AgreeBelow(a, b, 16) && Pow2(16) == 0x1_0000
    ensures a == b
  {
  }

  /** A draw that steps to StuckSeed: rand() returns 38, and 38 % 7 is shape 3. */
  lemma DrawIntoStuck(x: u16)
    requires NextSeed(x) == StuckSeed
    ensures Rand7(x).0 == 3 && Rand7(x).1 == StuckSeed
  {
    assert Rand(x).0 == StuckSeed * 53458 % 0x1_0000 / 0x100 == 38;
  }

  /** From the 16th draw on, whatever the seed, rand7 yields shape 3 every time. */
  lemma SameShapeForever(seed: u16, n: nat)
    requires n >= 15
    ensures Rand7(SeedAfter(seed, n)).0 == 3
    ensures Rand7(SeedAfter(seed, n)).1 == StuckSeed
  {
    SeedSettles(seed, n + 1);
    DrawIntoStuck(SeedAfter(seed, n));
  }

  /** From the seed 4 that main() sets (tetris.c:382), the first two draws are 4 and then 0. */
  lemma DrawsFromSeedFour()
    ensures Rand7(4).0 == 4
    ensures Rand7(Rand7(4).1).0 == 0
  {
    assert NextSeed(4) == 65099;
    assert Rand(4).0 == 65099 * 53458 % 0x1_0000 / 0x100 == 137;
    assert NextSeed(65099) == 58677;
    assert Rand(65099).0 == 58677 * 53458 % 0x1_0000 / 0x100 == 21;
  }
}
